=== FILE: README.md ===
# IPTV channel catalog — a Dafny model

This project models the pure logic of a small IPTV directory: a catalog of
channel records (`channels.json`), a web player that lists the channels
(favourites first) and is driven by a remote control, an offline script
that obfuscates stream URLs, an offline script that downloads logos, and an
admin page with its server that edits the catalog.

The model is functional. Records are datatypes, lists are sequences, and
every operation is a function. Each operation comes with lemmas that tie it
to a partner, such as an inverse, a preserved invariant or an independent
reference definition. I/O, clocks, randomness and library internals become
parameters.

Modules, following the program's structure:

- `Js`: JavaScript notions the code relies on.
  - `Option` stands for `undefined`/`null`.
  - `Json` is a parsed JSON value.
  - `Byte` is an octet.
  - String methods: `startsWith`, `includes`, `toLowerCase`, `split('?')[0]`.
- `Types`: the stored record `RawChannel` and the normalised `Channel`.
- `Seqs`: `Array.prototype.filter` and the subsequence relation.
- `StableSort`: `Array.prototype.sort`, modelled as a stable insertion sort
  under a total preorder.
- `Channels`: `transformChannel` and `loadChannels`.
- `Favorites`:
  - `sortChannelsWithFavorites`;
  - `loadFavoriteIds` and `saveFavoriteIds`, over an abstract key-value store
    and an abstract JSON codec.
- `UseChannels`: the player hook.
  - the favourite toggle and the re-sort after it;
  - `isFavorite`, `getChannelById`, `getAdjacentChannel`.
- `KeyboardNavigation`: the arithmetic of `handleKeyDown` on the channel
  grid.
- `Base64`: base 64 encoding as in section 4 of RFC 4648, plus a decoder
  used as the encoder's partner.
- `EncodeChannels`: the obfuscation `encode`, the key `ZapTV2026`, and the
  per-record map of `encode-channels.js`.
- `Uri`: `encodeURIComponent` (UTF-8, then `%HH`), plus percent-decoding as
  its partner.
- `NodePath`: `path.extname`, following Node's POSIX algorithm.
- `DownloadAssets`: `getExtension`, and the logo rewrite of
  `processChannels`. Each download's outcome is an input.
- `AdminApp`: the admin page's save (edit or add), delete, search and
  `getProxiedUrl`.
- `AdminServer`: the PIN check, login, array validation of the save and
  upload routes, and the image proxy's client and Content-Type choice.

**Encoded records.** `scripts/encode-channels.js:39` sets `_encoded: true`
on every record it writes to `channels.encoded.json`. No code reads that file
or that flag: the player imports `channels.json`
(`apps/web/src/hooks/useChannels.ts:9`), and `transformChannel`
(`packages/channels/src/channels.ts:11`) copies `m3u8_url` into `url`
unchanged. `EncodeChannels.LoadEncodedCatalog` is therefore hypothetical. It
states what `loadChannels` would yield if it were given the encoded records:
the obfuscated text as the stream URL. `EncodeChannels.Reveal` is a decoder
written only to state reversibility. No code path calls it.

## Model

Source paths below are relative to the repository root.

| member | source | states |
|---|---|---|
| Channels.LoadChannels | packages/channels/src/channels.ts:18-20 | One channel per record, in order. `id`, `name`, `logo` and `url` are the record's `item_id`, `name`, `image_url` and `m3u8_url`, copied as they are (no decoding). An empty catalog loads as empty. |
| Channels.TransformChannelKeeps | packages/channels/src/channels.ts:6-13 | Two records map to the same channel exactly when they agree on id, name, logo and stream URL. The description and every other key (such as `_encoded`) are dropped. |
| Channels.LoadChannelsConcat | packages/channels/src/channels.ts:18-20 | Loading distributes over concatenation of catalogs, so the map is order-preserving. |
| StableSort.SortPermutes | packages/channels/src/favorites.ts:43 | The sort returns a permutation of its input, as a multiset equality. |
| StableSort.SortSorted | packages/channels/src/favorites.ts:43 | Under a total preorder, every earlier element may precede every later one. |
| StableSort.SortStable | packages/channels/src/favorites.ts:43 | Elements that compare equal keep their input order: each tie class, filtered from the output, equals the same class filtered from the input. |
| StableSort.SortedUnique | packages/channels/src/favorites.ts:43 | Two sorted sequences with the same tie classes are equal. A stable sort's result is therefore fully determined. |
| StableSort.SortAgree | packages/channels/src/favorites.ts:43-53 | Two comparators that agree on the elements sort them alike. |
| Favorites.FavoritesFirstIsPreorder | packages/channels/src/favorites.ts:47-52 | The favourites-first comparator is a total preorder whenever the name comparison is one. |
| Favorites.SortChannelsWithFavorites | packages/channels/src/favorites.ts:37-54 | The result is a permutation of the channels. Every favourite precedes every non-favourite. Within one group, names are non-decreasing. |
| Favorites.SortChannelsStable | packages/channels/src/favorites.ts:43-53 | Channels of the same group with tied names keep their catalog order. |
| Favorites.SortIgnoresUnmatchedIds | packages/channels/src/favorites.ts:41-49 | Two id lists that agree on every listed channel give the same order, so ids matching no channel have no effect. |
| Favorites.SortIsFavoritesThenOthers | packages/channels/src/favorites.ts:43-53 | The order equals the name-sorted favourites followed by the name-sorted others. This is an independent reference definition. |
| Favorites.LoadFavoriteIds | packages/channels/src/favorites.ts:8-18 | The ids are the parsed text stored under `favoriteChannelIds`. The result is the empty list when the read throws, nothing or "" is stored, or parsing throws. |
| Favorites.SaveFavoriteIds | packages/channels/src/favorites.ts:23-32 | A successful write stores the serialised ids under the fixed key. No other key changes. A failed write is swallowed and leaves the store as it was. |
| Favorites.SaveThenLoad | packages/channels/src/favorites.ts:3-32 | Save and load use the same key, so loading after a save returns the saved list, given a codec that round-trips. |
| Favorites.FailedSaveKeepsPrevious | packages/channels/src/favorites.ts:23-32 | After a failed save, load returns what it returned before. |
| UseChannels.Toggle | apps/web/src/hooks/useChannels.ts:44-46 | A present id has every occurrence removed; the other ids stay in order, with their multiplicities. An absent id is appended at the end. The toggled id ends up present at most once, and its membership flips. |
| UseChannels.ToggleTwiceAbsent | apps/web/src/hooks/useChannels.ts:44-46 | Toggling an absent id twice restores the exact list. |
| UseChannels.ToggleTwicePresent | apps/web/src/hooks/useChannels.ts:44-46 | Toggling a present id twice restores set membership. The id then occurs once, at the end. |
| UseChannels.ToggleFlipsOnlyThatId | apps/web/src/hooks/useChannels.ts:44-62 | `isFavorite` flips for the toggled id and is unchanged for every other id. |
| UseChannels.ToggleFavorite | apps/web/src/hooks/useChannels.ts:42-59 | The new favourites are the toggled list: the toggled id flips and every other id keeps its status. The shown list is `sortChannelsWithFavorites(loadChannels(raw), newFavorites)`. That is a permutation of the whole loaded catalog, favourites first, with names in order inside each group. A failed save leaves the store unchanged. A successful save makes the new list loadable. |
| UseChannels.ToggleFavoriteRebuildsFromCatalog | apps/web/src/hooks/useChannels.ts:52-55 | The list after a toggle depends only on the catalog and the favourites, not on the list shown before. |
| UseChannels.FindIndex | apps/web/src/hooks/useChannels.ts:73-74 | The index of the first channel with the id, or none exactly when no channel has it. |
| UseChannels.GetChannelById | apps/web/src/hooks/useChannels.ts:66-69 | The first channel with the id, or none exactly when no channel has it. |
| UseChannels.GetAdjacentChannel | apps/web/src/hooks/useChannels.ts:71-83 | None exactly when the id is not listed; otherwise a channel of the list. |
| UseChannels.StepCases | apps/web/src/hooks/useChannels.ts:76-78 | `(i+1) % n` is `i+1`, or 0 from the last index. `(i-1+n) % n` is `i-1`, or `n-1` from index 0. |
| UseChannels.AdjacentIsNeighbour | apps/web/src/hooks/useChannels.ts:73-80 | From the first channel carrying its id, at position `i`, next is position `(i+1) mod n` and previous is `(i-1) mod n`. This holds even when other channels repeat ids. |
| UseChannels.NextThenPrev | apps/web/src/hooks/useChannels.ts:71-83 | With unique ids, next then previous returns to the starting channel, and so does previous then next. |
| UseChannels.AdjacentWraps | apps/web/src/hooks/useChannels.ts:76-80 | Next from the last channel is the first. Previous from the first is the last. |
| KeyboardNavigation.TruncRem | apps/web/src/hooks/useKeyboardNavigation.ts:26 | JavaScript's `%` agrees with the mathematical remainder for a non-negative dividend, and stays strictly between `-columns` and `columns`. |
| KeyboardNavigation.MoveUp | apps/web/src/hooks/useKeyboardNavigation.ts:29-36 | From a card in range: one row up to exactly `focusedIndex - columns`, and nothing on the first row. |
| KeyboardNavigation.MoveDown | apps/web/src/hooks/useKeyboardNavigation.ts:37-44 | From a card in range, when a next row exists: `min(focusedIndex + columns, itemCount - 1)`, which lies after the card and inside the grid. Nothing on the last row. |
| KeyboardNavigation.BeforeLastRow | apps/web/src/hooks/useKeyboardNavigation.ts:24-39 | A row lies before the last of the `ceil(itemCount / columns)` rows exactly when the next row starts at an existing card. |
| KeyboardNavigation.HandleKeyDown | apps/web/src/hooks/useKeyboardNavigation.ts:20-73 | With no cards, nothing happens. The default is prevented exactly for the seven handled keys. Enter selects the focused card. f/F asks to favourite it, only when a handler exists. Up and down are the row moves. Left moves one card back, and does nothing on the first card. Right moves one card on, and does nothing on the last card. A move from a card in range stays in range and goes elsewhere. |
| KeyboardNavigation.UpThenDown | apps/web/src/hooks/useKeyboardNavigation.ts:29-44 | Below the first row, up moves one row up, and down from there comes back. |
| KeyboardNavigation.DownThenUp | apps/web/src/hooks/useKeyboardNavigation.ts:29-44 | When the card one row down exists, down moves there and up comes back. |
| KeyboardNavigation.LeftThenRight | apps/web/src/hooks/useKeyboardNavigation.ts:45-58 | From a card other than the first, left then right returns to it. |
| KeyboardNavigation.ConcretePresses | apps/web/src/hooks/useKeyboardNavigation.ts:20-73 | Three presses on concrete grids, including the clamp to the last card and a right press on the last card that does nothing. |
| Base64.Encode | scripts/encode-channels.js:23 | The encoding of `n` bytes has length `4 * ceil(n / 3)`, a multiple of 4. The empty input encodes to "". |
| Base64.EncodeAlphabet | scripts/encode-channels.js:23 | Every output character is from the alphabet of section 4 of RFC 4648, or the pad '='. |
| Base64.DecodeEncode | scripts/encode-channels.js:23 | Decoding an encoding gives the bytes back. |
| Base64.EncodeInjective | scripts/encode-channels.js:23 | Distinct byte strings have distinct encodings. |
| Base64.TestVectors | scripts/encode-channels.js:23 | The test vectors "", "f", "fo", "foo" and "foobar" (giving "Zm9vYmFy") of section 10 of RFC 4648. |
| EncodeChannels.XorTwice | scripts/encode-channels.js:19 | XOR-ing twice with the same key unit restores the unit. |
| EncodeChannels.KeyUnit | scripts/encode-channels.js:14-19 | The key unit used at any position is an ASCII code, below 128. |
| EncodeChannels.KeyChangesLowBits | scripts/encode-channels.js:19 | XOR with a key unit changes only the low seven bits of a code unit: the quotient by 128 is kept. |
| EncodeChannels.KeyRepeats | scripts/encode-channels.js:14-19 | The key is applied cyclically: the unit at position `i + 9` is the unit at `i`, and position 0 uses 'Z'. |
| EncodeChannels.KeyedUnit | scripts/encode-channels.js:19 | Unit XOR key unit. It is a code unit, and below 256 when the input unit is. |
| EncodeChannels.XorWithKey | scripts/encode-channels.js:17-21 | One output unit per input unit, XOR-ed with the cyclic key. Since the key is ASCII, each unit keeps everything above its low seven bits: its quotient by 128. In particular, a unit below 256 stays below 256. |
| EncodeChannels.XorWithKeyTwice | scripts/encode-channels.js:17-21 | The XOR loop is an involution: applied twice, it gives every unit back, whatever its value. |
| EncodeChannels.Utf16 | scripts/encode-channels.js:18-19 | `charCodeAt` over the string. Characters below U+10000 give their own code as one unit. |
| EncodeChannels.Latin1 | scripts/encode-channels.js:23 | `'binary'` keeps the low eight bits of each unit, one byte per unit. A unit that already fits a byte is kept as it is. |
| EncodeChannels.Latin1OfBytes | scripts/encode-channels.js:23 | Units below 256 pass through `'binary'` unchanged. |
| EncodeChannels.Encode | scripts/encode-channels.js:16-24 | The output has length `4 * ceil(units / 3)`. |
| EncodeChannels.RevealEncode | scripts/encode-channels.js:16-24 | For text below U+0100, base 64 decoding and XOR-ing with the key again gives the text back. |
| EncodeChannels.EncodeLossyBeyondLatin1 | scripts/encode-channels.js:19-23 | Beyond U+00FF the low-byte truncation loses information: U+0100 and U+0000 encode alike. |
| EncodeChannels.EncodeRecord | scripts/encode-channels.js:34-40 | `m3u8_url` is replaced by its encoding and `_encoded` is set to true. Every other field, `image_url` included, is kept. |
| EncodeChannels.EncodeCatalog | scripts/encode-channels.js:34-40 | Length and order are preserved. Record `i` is the encoded record `i`. |
| EncodeChannels.LoadEncodedCatalog | packages/channels/src/channels.ts:6-20 | Hypothetical, since nothing loads the encoded file: given the encoded records, `loadChannels` would yield the plain catalog's channels, except that `url` would be the obfuscated text. The loader does not decode. |
| EncodeChannels.RevealLoadedUrl | scripts/encode-channels.js:37 | In that hypothetical load, a Latin-1 stream URL would be recovered by `Reveal`. |
| Uri.EncodeUriComponentAlphabet | apps/admin/public/app.js:162 | `encodeURIComponent` yields only unescaped characters and '%'. In particular it yields no '&', '=', '#', '?', '/', ':' or space. |
| Uri.DecodeEncodeUriComponent | apps/admin/public/app.js:162 | Percent-decoding the result gives the UTF-8 bytes of the input. |
| Uri.EncodeUnescaped | apps/admin/public/app.js:162 | A string made only of unescaped characters is its own encoding. |
| Uri.ExampleSpace | apps/admin/public/app.js:162 | "a b" encodes to "a%20b". |
| Uri.ExampleDelimiters | apps/admin/public/app.js:162 | "/?=" encodes to "%2F%3F%3D". |
| Uri.ExampleNonAscii | apps/admin/public/app.js:162 | "é" encodes to its two UTF-8 bytes, "%C3%A9". |
| NodePath.ExtNameShape | scripts/download-assets.js:49 | `path.extname` is "" or a '.' followed by no '.'. It holds no '/', and it ends the base name. |
| NodePath.ExtNameOfFile | scripts/download-assets.js:49 | For `dir/stem.ext` the extension is `.ext`. |
| NodePath.ExtNameOfDotFile | scripts/download-assets.js:49 | A dot file such as `.profile` has no extension. |
| NodePath.ExtNameLacks | scripts/download-assets.js:49 | A character absent from the path is absent from its extension. |
| NodePath.ExampleParent | scripts/download-assets.js:49 | ".." has no extension. |
| NodePath.ExampleDottedDirectory | scripts/download-assets.js:49 | A dot in a directory name does not count: "a.b/c" has no extension. |
| DownloadAssets.GetExtension | scripts/download-assets.js:48-54 | The result is always `.png`, `.jpg`, `.jpeg` or `.webp`. It is the extension cut at '?' and lower-cased, when that is one of these. Otherwise it is `.jpg`, and that includes a missing extension. |
| DownloadAssets.GetExtensionOfUrl | scripts/download-assets.js:48-54 | For a URL `dir/stem.ext?query`: the lower-cased `.ext` when it is known, otherwise `.jpg`. |
| DownloadAssets.LocalizeLogoChanges | scripts/download-assets.js:62-77 | A record changes exactly when its `image_url` starts with "http" and its download succeeded. Only `image_url` changes, to `/logos/<item_id><ext>`. |
| DownloadAssets.LocalizeLogoSettles | scripts/download-assets.js:62-71 | A localised logo is no longer remote, so another pass leaves it alone. |
| DownloadAssets.DownloadedCountPositive | scripts/download-assets.js:72-81 | The count of successful downloads is positive exactly when some remote logo was downloaded. |
| DownloadAssets.ProcessChannels | scripts/download-assets.js:56-94 | The catalog keeps its length. `updatedCount` is at most the number of records. The catalog is written back exactly when some download succeeded, and then as modified. |
| DownloadAssets.ProcessChannelsAt | scripts/download-assets.js:60-78 | Record `i` changes exactly when it was remote and its download succeeded, and then only its `image_url`, to the local path. |
| DownloadAssets.UpdatedCountCountsChanges | scripts/download-assets.js:58-72 | `updatedCount` equals the number of records the run changed. |
| DownloadAssets.RerunKeepsLocalized | scripts/download-assets.js:62-71 | A second run keeps every logo localised by the first. |
| DownloadAssets.RerunAfterFullSuccess | scripts/download-assets.js:56-94 | After a run where every download succeeded, a second run changes nothing and writes nothing. |
| AdminApp.NewChannel | apps/admin/public/app.js:265-271 | The saved record carries the edited id in edit mode, and the fresh id in add mode. It has no keys besides the five fields. |
| AdminApp.EditSpec | apps/admin/public/app.js:274-275 | Editing keeps the length. Records with another id are unchanged. Each record with the edited id takes the form's five values and keeps its other keys. |
| AdminApp.EditIdempotent | apps/admin/public/app.js:275 | Saving the same form twice in edit mode equals saving it once. |
| AdminApp.EditKeepsIds | apps/admin/public/app.js:275 | Editing keeps every position's id. |
| AdminApp.AddSpec | apps/admin/public/app.js:276-277 | Adding appends exactly one record with the fresh id and the form's values. The prefix is the old catalog. |
| AdminApp.DeleteSpec | apps/admin/public/app.js:285 | No record with the id remains. Every other record stays, in order and with its multiplicity. |
| AdminApp.DeleteIdempotent | apps/admin/public/app.js:285 | Deleting the same id twice equals deleting it once. |
| AdminApp.DeleteAfterAdd | apps/admin/public/app.js:264-288 | Deleting a just-added record with an unused id gives the old catalog back. |
| AdminApp.SearchSpec | apps/admin/public/app.js:249-256 | The result is an order-preserving selection of exactly the records whose lower-cased name or description contains the lower-cased term. Each such record appears as often as in the catalog. Records with empty name and description never appear. |
| AdminApp.SearchEmpty | apps/admin/public/app.js:251-253 | The empty term shows exactly the records that have a name or a description. |
| AdminApp.SearchIgnoresCase | apps/admin/public/app.js:250 | Searching for a term and for its lower-cased form shows the same list. |
| AdminApp.SearchIdempotent | apps/admin/public/app.js:250-254 | Searching the shown list again for the same term changes nothing. |
| AdminApp.ExampleSearchByName | apps/admin/public/app.js:250-254 | "bbc" finds "BBC One". |
| AdminApp.ProxiedUrlRoundTrip | apps/admin/public/app.js:160-163 | For a present address, the result is `API_URL + '/proxy?url='` followed by a single query value that percent-decodes to the address's UTF-8 bytes. |
| AdminApp.ProxiedUrlPlaceholder | apps/admin/public/app.js:160-163 | The placeholder is returned exactly for a missing or empty address. |
| AdminServer.ParseBody | apps/admin/server.js:17 | The JSON body parser runs before every route. A body without a JSON type reads as `{}`. Malformed JSON, and a top-level scalar in the default strict mode, get 400. A body over 50 MB gets 413. A charset not starting with "utf-", or a Content-Encoding it cannot inflate, gets 415. Any body that passes is an object or an array. |
| AdminServer.Login | apps/admin/server.js:67-74 | 200 exactly when the body is an object whose `pin` is the string PIN. When the body parser refuses the body, its status (400, 413 or 415). 401 otherwise. |
| AdminServer.ExampleScalarLogin | apps/admin/server.js:17 | A bare JSON string as the login body gets 400 from the parser. |
| AdminServer.LoginThenAuthorized | apps/admin/server.js:25-31 | A PIN the login accepts is exactly one whose `Bearer` header passes the middleware. |
| AdminServer.ExampleNumericPin | apps/admin/server.js:69 | Strict equality rejects the PIN sent as a number. |
| AdminServer.SaveChannelsSpec | apps/admin/server.js:87-98 | The catalog is written exactly when the body is a JSON array, the request is authorised and the write succeeds. Otherwise the statuses come in order. First, before authentication, the parser's refusals: 413 for an oversized body, 415 for an unsupported charset or encoding, and 400 for malformed or scalar JSON. Then 401, then 400 for a non-array, then 500 for a failed write. |
| AdminServer.ExampleScalarSave | apps/admin/server.js:17 | A scalar JSON body gets 400 even without the PIN. |
| AdminServer.UploadSpec | apps/admin/server.js:101-129 | The catalog is written exactly when the request is authorised, a file came, it parses to an array and the write succeeds. 401 exactly when unauthorised. When authorised: no file gives 400; a file `JSON.parse` rejects gives 500; a file that parses to a non-array gives 400; a failed write gives 500. |
| AdminServer.UploadIsSave | apps/admin/server.js:101-129 | An uploaded file that parses is handled like posting its content to `/api/channels`. The one exception is a scalar upload without the PIN: it gets 401, where the JSON body parser would refuse the posted scalar with 400 first. |
| AdminServer.UnauthorizedWritesNothing | apps/admin/server.js:25-31 | Without the right header, neither writing route writes. The upload answers 401. The save answers 401 once its body passes the parser, and the parser's 400, 413 or 415 otherwise. |
| AdminServer.ChooseClientByScheme | apps/admin/server.js:140 | `https://` addresses are fetched with the https client, and `http://` addresses with the http client. |
| AdminServer.ContentTypeFor | apps/admin/server.js:147-151 | `.png` gives `image/png` and `.webp` gives `image/webp`, each exactly. `.jpg`, `.jpeg` and every other extension give `image/jpeg`. |
| AdminServer.GuessContentType | apps/admin/server.js:147-151 | The guess is PNG or WebP exactly when `path.extname(url)`, lower-cased, is `.png` or `.webp`. It is JPEG otherwise. |
| AdminServer.ProxySpec | apps/admin/server.js:131-166 | A missing or empty `url` gives 400. The client follows the "https" prefix. An upstream failure gives 500. An answered fetch gives 200. A present upstream type other than `text/plain` is kept. Otherwise the type is the guess from the address's extension. |
| AdminServer.GuessMatchesSavedExtension | apps/admin/server.js:147-151 | For an address without '?', the proxy's guess matches the extension the download script saves the logo under. |
| AdminServer.ExampleQueryDisagrees | apps/admin/server.js:147 | With a query the two differ: "http://h/logo.png?v=1" is saved as `.png` but proxied as `image/jpeg`. |

## Left out

- React rendering, routing and the DOM are not modelled. This covers
  `useScrollIntoView`, listener registration, the modal and the rendering of
  cards. They are UI.
- Playback through hls.js and the `<video>` element is not modelled. It is a
  foreign library.
- The sort modes and the favourite/other partition of the list screen are
  not modelled. The screen reads fields that the hook never returns.
- No decoder for `_encoded` URLs is part of the code. `EncodeChannels.Reveal`
  exists only to state that the obfuscation can be reversed.
- I/O is modelled as inputs. This covers `fetch`, `fs`, `exec`/`execSync`,
  HTTP downloads with their redirect following, file reads and writes, and
  the one-time loading in the hook. Whether a write succeeds, the outcome of
  each download by position, the parser's verdict and the upstream answer
  are all parameters. A failed write is treated as writing nothing.
- The encode script that runs after a save or a logo update is not modelled
  as part of those operations. What it computes is `EncodeChannels.EncodeCatalog`.
- Reading the uploaded temporary file, and removing it, are not modelled.
- Async and Promise ordering and React state batching are not modelled. The
  save inside the toggle is fire-and-forget. Only its outcome is modelled.
- `localeCompare` is an abstract total preorder `nameLe`.
- `JSON.parse`/`JSON.stringify` of the favourite list is an abstract codec.
  Save-then-load assumes the codec round-trips.
- Favorites.LoadFavoriteIds: the codec's parse yields a list of strings or
  fails. `JSON.parse` can return any JSON value, and
  `packages/channels/src/favorites.ts:12` returns it unchecked. A stored "5"
  or "{}" then makes `new Set(...)` throw during the hook's init, which the
  init catches, so the player shows no channels. A stored "null" makes the
  first toggle throw. None of this is modelled.
- Lone UTF-16 surrogates cannot occur. Dafny's characters are Unicode scalar
  values. So `encodeURIComponent`'s URIError on a lone surrogate is not
  modelled, and neither is a lone surrogate read from parsed JSON.
- AdminServer.ParseBody: assumes body-parser 1.x, which sets `req.body` to
  `{}` when it does not parse the body. Under body-parser 2, `req.body` would
  stay undefined, so `const { pin } = req.body` would throw and the login
  would answer 500. No package manifest is part of this model to settle the
  version.
- The JSON body parser's rarer refusals are not modelled. These include a
  body whose size does not match its `Content-Length`, and an aborted request.
  `AdminServer.ParseBody` covers malformed JSON, strict mode, the size limit,
  and the charset and encoding checks.
- `GET /api/channels` is not modelled. It only reads and returns the catalog
  file.
- `crypto.randomUUID()` is a fresh-id parameter.
- Absent record fields are modelled as "". `packages/channels/src/types.ts:4-10`
  declares every field of a record a required string, and the model keeps to
  that declared type. A catalog that breaks it behaves differently in the
  code, in ways the model does not follow:
  - `a.name.localeCompare` throws on a channel without a name
    (`packages/channels/src/favorites.ts:52`);
  - `text.length` throws on a record without `m3u8_url`
    (`scripts/encode-channels.js:18`);
  - a record without `item_id` has its logo saved as `undefined.png`
    (`scripts/download-assets.js:64`);
  - the delete filter's `!==` tells an absent `item_id` from ""
    (`apps/admin/public/app.js:285`).
- A `currentEditId` of `null` is modelled as "". Both switch the save
  button to adding.
- Deleting in add mode is not modelled. The delete button is hidden then.
- Array-valued query parameters of the proxy are not modelled. For
  `?url=a&url=b`, Express would give an array.
- Numbers in JSON are integers. No modelled decision looks at a number's
  value.
- Floating point: `Math.ceil` and `Math.floor` of non-negative quotients
  are modelled as integer division.
- KeyboardNavigation.HandleKeyDown: requires `columns >= 1`. The grid always
  passes a positive constant, and `columns = 0` would divide by zero.
- Js.ToLower: maps only the ASCII letters. Full Unicode case mapping is not
  modelled.
- DownloadAssets.ProcessChannels: a function over the whole catalog, not the
  source's sequential loop. The loop's iterations are independent, so the
  result is the same.
- EncodeChannels.RevealEncode: holds only for text below U+0100.
  `EncodeChannels.EncodeLossyBeyondLatin1` shows why the general case fails.

=== FILE: admin_app.dfy ===
/**
 The list operations of the admin page: the save button (edit a record in
 place, or append a new one), the delete button, the search box and the
 logo preview address. Each works on the catalog the page last fetched
 and yields the catalog it posts back (or the list it shows).
 A `currentEditId` of `null` and one of "" both switch the save button to
 adding; both are modelled as "".
 */
module AdminApp {
  import opened Js
  import opened Types
  import opened Seqs
  import Uri

  const ApiUrl: string := "http://localhost:3001/api"
  const PlaceholderUrl: string := "https://via.placeholder.com/50"

  /** What the proxied logo address starts with. */
  const ProxyPrefix: string := ApiUrl + "/proxy?url="

  /** The four inputs of the editor dialog. */
  datatype EditForm = EditForm(name: string, description: string, imageUrl: string, m3u8Url: string)

  /** The record the save button builds: the edited id, or a fresh one
      when adding. It has exactly the five named keys. */
  function NewChannel(currentEditId: string, form: EditForm, freshId: string): (r: RawChannel)
    ensures r.itemId == (if currentEditId != "" then currentEditId else freshId)
    ensures r.rest == map[]
  {
    RawChannel(if currentEditId != "" then currentEditId else freshId,
               form.name, form.description, form.imageUrl, form.m3u8Url, map[])
  }

  /** `{ ...c, ...n }`: the five named fields come from `n`, every other key
      from `c`. */
  function Merge(c: RawChannel, n: RawChannel): RawChannel {
    c.(itemId := n.itemId, name := n.name, description := n.description,
       imageUrl := n.imageUrl, m3u8Url := n.m3u8Url)
  }

  /** `channels.map(c => c.item_id === id ? { ...c, ...n } : c)` */
  function ApplyEdit(channels: seq<RawChannel>, id: string, n: RawChannel): (r: seq<RawChannel>)
    ensures |r| == |channels|
  {
    seq(|channels|, i requires 0 <= i < |channels| =>
      if channels[i].itemId == id then Merge(channels[i], n) else channels[i])
  }

  /** The catalog the save button posts. */
  function SaveEdit(channels: seq<RawChannel>, currentEditId: string, form: EditForm, freshId: string): (r: seq<RawChannel>)
  {
    var n := NewChannel(currentEditId, form, freshId);
    if currentEditId != "" then ApplyEdit(channels, currentEditId, n)
    else channels + [n]
  }

  /** Editing keeps the length, leaves every record with another id as it
      is, and gives each record with the edited id the form's values while
      keeping its other keys (such as `_encoded`). */
  lemma EditSpec(channels: seq<RawChannel>, id: string, form: EditForm, freshId: string, i: nat)
    requires id != "" && i < |channels|
    ensures var r := SaveEdit(channels, id, form, freshId);
      && |r| == |channels|
      && (channels[i].itemId != id ==> r[i] == channels[i])
      && (channels[i].itemId == id ==>
            r[i] == RawChannel(id, form.name, form.description, form.imageUrl, form.m3u8Url, channels[i].rest))
  {
  }

  /** Saving the same form twice in edit mode is saving it once. */
  lemma EditIdempotent(channels: seq<RawChannel>, id: string, form: EditForm, freshId: string)
    requires id != ""
    ensures SaveEdit(SaveEdit(channels, id, form, freshId), id, form, freshId) == SaveEdit(channels, id, form, freshId)
  {
    var once := SaveEdit(channels, id, form, freshId);
    var twice := SaveEdit(once, id, form, freshId);
    forall i | 0 <= i < |channels|
      ensures twice[i] == once[i]
    {
      EditSpec(channels, id, form, freshId, i);
      EditSpec(once, id, form, freshId, i);
    }
  }

  /** Editing never changes which ids the catalog holds, position by
      position. */
  lemma EditKeepsIds(channels: seq<RawChannel>, id: string, form: EditForm, freshId: string, i: nat)
    requires id != "" && i < |channels|
    ensures SaveEdit(channels, id, form, freshId)[i].itemId == channels[i].itemId
  {
    EditSpec(channels, id, form, freshId, i);
  }

  /** In add mode exactly one record, with the fresh id and the form's
      values and nothing else, is appended; the catalog before it is kept. */
  lemma AddSpec(channels: seq<RawChannel>, form: EditForm, freshId: string)
    ensures var r := SaveEdit(channels, "", form, freshId);
      && |r| == |channels| + 1
      && r[..|channels|] == channels
      && r[|channels|] == RawChannel(freshId, form.name, form.description, form.imageUrl, form.m3u8Url, map[])
  {
    var r := SaveEdit(channels, "", form, freshId);
    assert r == channels + [r[|channels|]];
  }

  /** `channels.filter(c => c.item_id !== id)` */
  function Delete(channels: seq<RawChannel>, id: string): (r: seq<RawChannel>)
    ensures |r| <= |channels|
  {
    Filter(OtherId(id), channels)
  }

  function OtherId(id: string): RawChannel -> bool {
    (c: RawChannel) => c.itemId != id
  }

  /** Deleting removes every record with the id and keeps every other
      record, in order and as often as it occurred. */
  lemma DeleteSpec(channels: seq<RawChannel>, id: string)
    ensures var r := Delete(channels, id);
      && (forall i | 0 <= i < |r| :: r[i].itemId != id)
      && (forall c :: c in r <==> c in channels && c.itemId != id)
      && (forall c: RawChannel | c.itemId != id :: multiset(r)[c] == multiset(channels)[c])
      && IsSubsequence(r, channels)
  {
    FilterContents(OtherId(id), channels);
  }

  /** Deleting the same id twice is deleting it once. */
  lemma DeleteIdempotent(channels: seq<RawChannel>, id: string)
    ensures Delete(Delete(channels, id), id) == Delete(channels, id)
  {
    FilterFilter(OtherId(id), OtherId(id), OtherId(id), channels);
  }

  /** Deleting a record just added with an unused id gives the catalog back. */
  lemma DeleteAfterAdd(channels: seq<RawChannel>, form: EditForm, freshId: string)
    requires forall i | 0 <= i < |channels| :: channels[i].itemId != freshId
    ensures Delete(SaveEdit(channels, "", form, freshId), freshId) == channels
  {
    var n := NewChannel("", form, freshId);
    FilterConcat(OtherId(freshId), channels, [n]);
    FilterKeepsAll(OtherId(freshId), channels);
    assert Filter(OtherId(freshId), [n]) == [];
  }

  /** The search test of one record against a lower-cased term: its name
      or its description, lower-cased, contains the term; an empty field
      never matches. */
  predicate Matches(c: RawChannel, term: string) {
    || (c.name != "" && Includes(ToLower(c.name), term))
    || (c.description != "" && Includes(ToLower(c.description), term))
  }

  function MatchesTerm(term: string): RawChannel -> bool {
    c => Matches(c, term)
  }

  /** The list the search box shows for `input`. */
  function Search(channels: seq<RawChannel>, input: string): (r: seq<RawChannel>)
    ensures |r| <= |channels|
  {
    Filter(MatchesTerm(ToLower(input)), channels)
  }

  /** The result is an order-preserving selection of exactly the matching
      records, each as often as in the catalog; no record with an empty
      name and description is in it. */
  lemma SearchSpec(channels: seq<RawChannel>, input: string)
    ensures var r := Search(channels, input);
      && IsSubsequence(r, channels)
      && (forall c :: c in r <==> c in channels && Matches(c, ToLower(input)))
      && (forall c | Matches(c, ToLower(input)) :: multiset(r)[c] == multiset(channels)[c])
      && (forall i | 0 <= i < |r| :: r[i].name != "" || r[i].description != "")
  {
    FilterContents(MatchesTerm(ToLower(input)), channels);
  }

  /** Every string contains the empty string. */
  lemma IncludesEmpty(s: string)
    ensures Includes(s, "")
  {
    assert OccursAt(s, "", 0);
  }

  function HasText(c: RawChannel): bool {
    c.name != "" || c.description != ""
  }

  /** An empty search shows every record with a name or a description, and
      only those. */
  lemma SearchEmpty(channels: seq<RawChannel>)
    ensures Search(channels, "") == Filter(HasText, channels)
  {
    forall i | 0 <= i < |channels|
      ensures MatchesTerm(ToLower(""))(channels[i]) == HasText(channels[i])
    {
      IncludesEmpty(ToLower(channels[i].name));
      IncludesEmpty(ToLower(channels[i].description));
    }
    FilterAgree(MatchesTerm(ToLower("")), HasText, channels);
  }

  /** Lower-casing twice is lower-casing once. */
  lemma ToLowerIdempotent(s: string)
    ensures ToLower(ToLower(s)) == ToLower(s)
  {
  }

  /** The search ignores the case of the term. */
  lemma SearchIgnoresCase(channels: seq<RawChannel>, input: string)
    ensures Search(channels, ToLower(input)) == Search(channels, input)
  {
    ToLowerIdempotent(input);
  }

  /** Searching the shown list again for the same term shows it unchanged. */
  lemma SearchIdempotent(channels: seq<RawChannel>, input: string)
    ensures Search(Search(channels, input), input) == Search(channels, input)
  {
    var p := MatchesTerm(ToLower(input));
    FilterFilter(p, p, p, channels);
  }

  /** The term matches a record whose lower-cased name contains it. */
  lemma ExampleSearchByName()
    ensures var c := RawChannel("1", "BBC One", "", "", "", map[]);
      Search([c], "bbc") == [c]
  {
    var c := RawChannel("1", "BBC One", "", "", "", map[]);
    assert ToLower("bbc") == "bbc";
    assert ToLower(c.name)[0..3] == "bbc";
    assert OccursAt(ToLower(c.name), "bbc", 0);
    assert Filter(MatchesTerm("bbc"), [c][1..]) == [];
  }

  /** `getProxiedUrl(url)`: the placeholder when there is no address,
      otherwise the admin server's proxy with the address as its escaped
      `url` parameter. */
  function GetProxiedUrl(url: string): (r: string)
  {
    if url == "" then PlaceholderUrl
    else ProxyPrefix + Uri.EncodeUriComponent(url)
  }

  /** A logo address survives the trip through the proxy address: what
      follows the prefix is one query value (no '&', '#' or '=') that
      percent-decodes to the address's UTF-8 bytes. */
  lemma ProxiedUrlRoundTrip(url: string)
    requires url != ""
    ensures var r := GetProxiedUrl(url);
      && StartsWith(r, ProxyPrefix)
      && Uri.PercentDecode(r[|ProxyPrefix|..]) == Some(Uri.Utf8(url))
      && forall i | |ProxyPrefix| <= i < |r| :: Uri.IsUnescaped(r[i]) || r[i] == '%'
  {
    var e := Uri.EncodeUriComponent(url);
    var r := GetProxiedUrl(url);
    assert r[|ProxyPrefix|..] == e;
    Uri.DecodeEncodeUriComponent(url);
    Uri.EncodeUriComponentAlphabet(url);
    forall i | |ProxyPrefix| <= i < |r|
      ensures Uri.IsUnescaped(r[i]) || r[i] == '%'
    {
      assert r[i] == e[i - |ProxyPrefix|];
    }
  }

  /** Without an address the preview shows the placeholder, which is not a
      proxy address. */
  lemma ProxiedUrlPlaceholder(url: string)
    ensures GetProxiedUrl(url) == PlaceholderUrl <==> url == ""
  {
    if url != "" {
      var r := GetProxiedUrl(url);
      assert r[4] == ProxyPrefix[4] == ':';
      assert PlaceholderUrl[4] == 's';
    }
  }
}

=== FILE: admin_server.dfy ===
/**
 The decisions of the admin server: the PIN check in front of the catalog
 routes, the login check, the validation of a posted or uploaded catalog,
 and the image proxy's choice of client and Content-Type. File writes,
 JSON parsing and the upstream fetch are inputs: whether the write
 succeeds, the parser's verdict on the uploaded text, and what the
 upstream server answered.
 */
module AdminServer {
  import opened Js
  import NodePath
  import DownloadAssets

  const Pin: string := "184216"

  /** The `Authorization` header the admin page sends: `Bearer <pin>`. */
  function BearerHeader(pin: string): string {
    "Bearer " + pin
  }

  /** `authMiddleware`: the request reaches its route exactly when the
      `Authorization` header is present and is `Bearer <PIN>`. */
  predicate Authorized(header: Option<string>) {
    header == Some(BearerHeader(Pin))
  }

  /** What `bodyParser.json({ limit: '50mb' })`, which runs before every
      route and before `authMiddleware`, sees of a request body. It parses
      only bodies sent with a JSON Content-Type. */
  datatype RequestBody =
    | NotJson           // another Content-Type, or an empty body
    | Malformed         // JSON Content-Type, text that is not JSON
    | TooLarge          // over the 50 MB limit
    | Unsupported       // a charset not starting with "utf-", or a Content-Encoding it cannot inflate
    | Sent(value: Json) // JSON Content-Type, the parsed text

  /** The middleware's outcome: `req.body`, or the error status it answers
      with itself, before any route runs. */
  datatype Parsed = Body(value: Json) | Rejected(status: nat)

  /** The top-level values strict mode (the default) accepts. */
  predicate StrictValue(v: Json) {
    v.JObject? || v.JArray?
  }

  /** `bodyParser.json`: an unparsed body reads as `{}`; malformed text and
      a top-level scalar (strict mode) are refused with 400, an oversized
      body with 413, an unsupported charset or encoding with 415. */
  function ParseBody(b: RequestBody): (p: Parsed)
    ensures p.Body? ==> StrictValue(p.value)
    ensures p.Rejected? <==> !b.NotJson? && !(b.Sent? && StrictValue(b.value))
    ensures b.NotJson? ==> p == Body(JObject(map[]))
    ensures b.Sent? && StrictValue(b.value) ==> p == Body(b.value)
    ensures b.Malformed? || (b.Sent? && !StrictValue(b.value)) ==> p == Rejected(400)
    ensures b.TooLarge? ==> p == Rejected(413)
    ensures b.Unsupported? ==> p == Rejected(415)
  {
    match b
    case NotJson => Body(JObject(map[]))
    case Malformed => Rejected(400)
    case TooLarge => Rejected(413)
    case Unsupported => Rejected(415)
    case Sent(v) => if StrictValue(v) then Body(v) else Rejected(400)
  }

  /** `const { pin } = req.body`: the `pin` member of an object body. */
  function PinOf(body: Json): Option<Json> {
    if body.JObject? && "pin" in body.fields then Some(body.fields["pin"]) else None
  }

  /** `POST /api/login`, behind the body parser: 200 exactly when the body
      is an object whose `pin` is the string PIN (strict equality: the
      number 184216 does not do); a body the parser refuses gets its status;
      401 otherwise. */
  function Login(body: RequestBody): (status: nat)
    ensures status == 200 <==> body.Sent? && PinOf(body.value) == Some(JString(Pin))
    ensures status == 401 <==> ParseBody(body).Body? && PinOf(ParseBody(body).value) != Some(JString(Pin))
    ensures ParseBody(body).Rejected? ==> status == ParseBody(body).status
  {
    match ParseBody(body)
    case Rejected(s) => s
    case Body(v) => if PinOf(v) == Some(JString(Pin)) then 200 else 401
  }

  /** A PIN the login accepts is one whose bearer header the protected
      routes admit, and the other way round. */
  lemma LoginThenAuthorized(pin: string)
    ensures Login(Sent(JObject(map["pin" := JString(pin)]))) == 200 <==> Authorized(Some(BearerHeader(pin)))
  {
    var prefix := "Bearer ";
    assert BearerHeader(pin)[|prefix|..] == pin;
    assert BearerHeader(Pin)[|prefix|..] == Pin;
  }

  /** The PIN sent as a number is refused. */
  lemma ExampleNumericPin()
    ensures Login(Sent(JObject(map["pin" := JNumber(184216)]))) == 401
  {
  }

  /** A JSON body that is a bare string never reaches the login handler. */
  lemma ExampleScalarLogin()
    ensures Login(Sent(JString("x"))) == 400
  {
  }

  /** A route's reply: its status and the catalog it wrote to the file,
      if it wrote one. */
  datatype Reply = Reply(status: nat, written: Option<seq<Json>>)

  /** `writeChannels(channels)` followed by the success reply; a failed
      write ends in the 500 reply of the route's `catch`. */
  function Write(items: seq<Json>, writeOk: bool): (r: Reply)
  {
    if writeOk then Reply(200, Some(items)) else Reply(500, None)
  }

  /** `POST /api/channels`: the body parser, then `authMiddleware`, then the
      array check and the write. */
  function SaveChannels(header: Option<string>, body: RequestBody, writeOk: bool): (r: Reply)
  {
    match ParseBody(body)
    case Rejected(s) => Reply(s, None)
    case Body(v) =>
      if !Authorized(header) then Reply(401, None)
      else if !v.JArray? then Reply(400, None)
      else Write(v.items, writeOk)
  }

  /** `POST /api/upload`: `file` is the uploaded text, `parse` the verdict
      of `JSON.parse` on it (`None` when it throws). The request is
      multipart, so the JSON body parser lets it through untouched. */
  function Upload(header: Option<string>, file: Option<string>, parse: string -> Option<Json>, writeOk: bool): (r: Reply)
  {
    if !Authorized(header) then Reply(401, None)
    else if file.None? then Reply(400, None)
    else match parse(file.value)
      case None => Reply(500, None)
      case Some(body) =>
        if !body.JArray? then Reply(400, None)
        else Write(body.items, writeOk)
  }

  /** Saving writes the catalog exactly when the body is a JSON array, the
      request is authorised and the write succeeds; the file then holds the
      array's items. Otherwise the status says why: the body parser's 400 or
      413 come first, then 401, then 400 for a non-array, then 500. */
  lemma SaveChannelsSpec(header: Option<string>, body: RequestBody, writeOk: bool)
    ensures var r := SaveChannels(header, body, writeOk);
      && (r.written.Some? <==> Authorized(header) && body.Sent? && body.value.JArray? && writeOk)
      && (r.written.Some? ==> r.status == 200 && r.written.value == body.value.items)
      && (r.status == 413 <==> body.TooLarge?)
      && (r.status == 415 <==> body.Unsupported?)
      && (r.status == 401 <==> ParseBody(body).Body? && !Authorized(header))
      && (r.status == 400 <==>
            || ParseBody(body) == Rejected(400)
            || (ParseBody(body).Body? && Authorized(header) && !ParseBody(body).value.JArray?))
      && (r.status == 500 <==> Authorized(header) && body.Sent? && body.value.JArray? && !writeOk)
  {
  }

  /** A scalar JSON body is refused by the parser even without the PIN. */
  lemma ExampleScalarSave(writeOk: bool)
    ensures SaveChannels(None, Sent(JNumber(5)), writeOk) == Reply(400, None)
  {
  }

  /** An uploaded file that parses is handled exactly as if its content had
      been posted to `/api/channels`, except that an unauthorised scalar
      upload gets 401 where the posted scalar would get the parser's 400. */
  lemma UploadIsSave(header: Option<string>, text: string, parse: string -> Option<Json>, writeOk: bool)
    requires parse(text).Some?
    ensures Authorized(header) || StrictValue(parse(text).value) ==>
      Upload(header, Some(text), parse, writeOk) == SaveChannels(header, Sent(parse(text).value), writeOk)
  {
  }

  /** An upload writes the catalog exactly when the request is authorised,
      a file came, it parses to an array and the write succeeds. */
  lemma UploadSpec(header: Option<string>, file: Option<string>, parse: string -> Option<Json>, writeOk: bool)
    ensures var r := Upload(header, file, parse, writeOk);
      && (r.written.Some? <==>
            Authorized(header) && file.Some? && parse(file.value).Some? && parse(file.value).value.JArray? && writeOk)
      && (r.written.Some? ==> r.status == 200 && r.written.value == parse(file.value).value.items)
      && (r.status == 401 <==> !Authorized(header))
      && (Authorized(header) && file.None? ==> r == Reply(400, None))
      && (Authorized(header) && file.Some? && parse(file.value).None? ==> r == Reply(500, None))
      && (Authorized(header) && file.Some? && parse(file.value).Some? && !parse(file.value).value.JArray? ==>
            r == Reply(400, None))
      && (r.written.None? ==> r.status != 200)
  {
  }

  /** Any protected route: without the right header nothing is written.
      The upload answers 401; the save answers 401 once its body has passed
      the parser, and the parser's own 400 or 413 otherwise. */
  lemma UnauthorizedWritesNothing(header: Option<string>, body: RequestBody, file: Option<string>,
                                  parse: string -> Option<Json>, writeOk: bool)
    requires !Authorized(header)
    ensures SaveChannels(header, body, writeOk).written.None?
    ensures SaveChannels(header, body, writeOk).status
         == (if ParseBody(body).Rejected? then ParseBody(body).status else 401)
    ensures Upload(header, file, parse, writeOk) == Reply(401, None)
  {
  }

  /** The Node module the proxy fetches with. */
  datatype Client = Http | Https

  /** `url.startsWith('https') ? https : http` */
  function ChooseClient(url: string): (c: Client)
    ensures c == Https <==> StartsWith(url, "https")
  {
    if StartsWith(url, "https") then Https else Http
  }

  /** The client follows the address's scheme: `https://` addresses are
      fetched with https, `http://` ones with http. */
  lemma ChooseClientByScheme(rest: string)
    ensures ChooseClient("https://" + rest) == Https
    ensures ChooseClient("http://" + rest) == Http
  {
    assert ("https://" + rest)[..5] == "https";
    assert ("http://" + rest)[4] == ':';
  }

  /** The Content-Type the proxy picks for a lower-cased extension. */
  function ContentTypeFor(ext: string): (t: string)
    ensures IsImageType(t)
    ensures t == "image/png" <==> ext == ".png"
    ensures t == "image/webp" <==> ext == ".webp"
    ensures t == "image/jpeg" <==> ext != ".png" && ext != ".webp"
  {
    if ext == ".png" then "image/png"
    else if ext == ".jpg" || ext == ".jpeg" then "image/jpeg"
    else if ext == ".webp" then "image/webp"
    else "image/jpeg"
  }

  predicate IsImageType(t: string) {
    t == "image/png" || t == "image/jpeg" || t == "image/webp"
  }

  /** The guess from `path.extname(url).toLowerCase()`: PNG and WebP by
      their extensions, JPEG for ".jpg", ".jpeg" and everything else. */
  function GuessContentType(url: string): (t: string)
    ensures IsImageType(t)
    ensures var ext := ToLower(NodePath.ExtName(url));
      (t == "image/png" <==> ext == ".png") && (t == "image/webp" <==> ext == ".webp")
  {
    ContentTypeFor(ToLower(NodePath.ExtName(url)))
  }

  /** What the upstream server did: failed, or answered with an optional
      Content-Type header. */
  datatype Upstream = Failed | Answered(contentType: Option<string>)

  /** The proxy's reply: status, the client used (none when the request is
      refused before fetching) and the Content-Type set. */
  datatype ProxyReply = ProxyReply(status: nat, client: Option<Client>, contentType: Option<string>)

  /** An upstream Content-Type the proxy passes on as it is. */
  predicate Trusted(contentType: Option<string>) {
    contentType.Some? && contentType.value != "" && contentType.value != "text/plain"
  }

  /** `GET /api/proxy?url=...` */
  function Proxy(url: Option<string>, upstream: Upstream): (r: ProxyReply)
  {
    if url.None? || url.value == "" then ProxyReply(400, None, None)
    else
      var client := ChooseClient(url.value);
      match upstream
      case Failed => ProxyReply(500, Some(client), None)
      case Answered(contentType) =>
        if Trusted(contentType) then ProxyReply(200, Some(client), contentType)
        else ProxyReply(200, Some(client), Some(GuessContentType(url.value)))
  }

  /** A missing or empty `url` is refused with 400 before any fetch; the
      https client is used exactly for addresses starting with "https"; a
      present upstream type other than "text/plain" is passed on, and in
      every other case the type is guessed from the address's extension. */
  lemma ProxySpec(url: Option<string>, upstream: Upstream)
    ensures var r := Proxy(url, upstream);
      && (r.status == 400 <==> url.None? || url.value == "")
      && (r.status != 400 ==> r.client == Some(if StartsWith(url.value, "https") then Https else Http))
      && (r.status == 500 <==> r.status != 400 && upstream.Failed?)
      && (url.Some? && url.value != "" && upstream.Answered? ==> r.status == 200)
      && (r.status == 200 ==>
            (Trusted(upstream.contentType) ==> r.contentType == upstream.contentType)
            && (!Trusted(upstream.contentType) ==> r.contentType == Some(GuessContentType(url.value))))
  {
  }

  /** For an address without a query, the proxy's guess agrees with the
      file extension the download script saves the logo under. */
  lemma GuessMatchesSavedExtension(url: string)
    requires '?' !in url
    ensures GuessContentType(url) == ContentTypeFor(DownloadAssets.GetExtension(url))
  {
    NodePath.ExtNameLacks(url, '?');
    BeforeQuestionMarkWhole(NodePath.ExtName(url));
  }

  /** With a query the two disagree: the download script cuts the
      extension at '?', the proxy does not, and falls back to JPEG. */
  lemma ExampleQueryDisagrees()
    ensures DownloadAssets.GetExtension("http://h/logo.png?v=1") == ".png"
    ensures GuessContentType("http://h/logo.png?v=1") == "image/jpeg"
  {
    ExampleQueryUrl("http://h/logo.png?v=1");
    ExampleQuerySaved("http://h/logo.png?v=1");
    ExampleQueryGuessed("http://h/logo.png?v=1");
  }

  lemma ExampleQueryUrl(url: string)
    requires url == "http://h/logo.png?v=1"
    ensures url == "http://h/" + "logo" + ".png" + "?v=1"
    ensures url == "http://h/" + "logo" + ".png?v=1"
  {
  }

  lemma ExampleQuerySaved(url: string)
    requires url == "http://h/" + "logo" + ".png" + "?v=1"
    ensures DownloadAssets.GetExtension(url) == ".png"
  {
    ExampleQueryParts("http://h/", "logo", ".png", "?v=1");
    DownloadAssets.GetExtensionOfUrl("http://h/", "logo", ".png", "?v=1");
    LowerCasePng(".png");
  }

  lemma ExampleQueryParts(dir: string, stem: string, ext: string, query: string)
    requires dir == "http://h/" && stem == "logo" && ext == ".png" && query == "?v=1"
    ensures stem != [] && '.' !in stem && '/' !in stem
    ensures |ext| >= 1 && ext[0] == '.' && '.' !in ext[1..] && '/' !in ext && '?' !in ext
    ensures query[0] == '?' && '.' !in query && '/' !in query
    ensures dir[|dir| - 1] == '/'
  {
    assert ext[1..] == "png";
  }

  lemma LowerCasePng(ext: string)
    requires ext == ".png"
    ensures ToLower(ext) == ext && DownloadAssets.IsKnownExtension(ext)
  {
  }

  lemma ExampleQueryGuessed(url: string)
    requires url == "http://h/" + "logo" + ".png?v=1"
    ensures GuessContentType(url) == "image/jpeg"
  {
    var ext := ".png?v=1";
    NodePath.ExtNameOfFile("http://h/", "logo", ext);
    LowerCaseExtension(ext);
  }

  lemma LowerCaseExtension(ext: string)
    requires ext == ".png?v=1"
    ensures ToLower(ext) == ext
  {
  }
}

=== FILE: base64.dfy ===
/**
 The base 64 encoding of section 4 of RFC 4648 (standard alphabet, `=`
 padding), as Node's `Buffer.prototype.toString('base64')` produces it,
 with a decoder as its partner.
 */
module Base64 {
  import opened Js

  /** A 6-bit value, the payload of one base 64 character. */
  predicate IsSextet(v: int) {
    0 <= v < 64
  }

  /** The character for a 6-bit value: A-Z, a-z, 0-9, '+', '/'. */
  function Digit(v: int): (c: char)
    requires IsSextet(v)
  {
    if v < 26 then ('A' as int + v) as char
    else if v < 52 then ('a' as int + (v - 26)) as char
    else if v < 62 then ('0' as int + (v - 52)) as char
    else if v == 62 then '+'
    else '/'
  }

  /** The 6-bit value of an alphabet character; `None` for any other. */
  function DigitValue(c: char): (r: Option<int>)
    ensures r.Some? ==> IsSextet(r.value)
  {
    if 'A' <= c <= 'Z' then Some(c as int - 'A' as int)
    else if 'a' <= c <= 'z' then Some(c as int - 'a' as int + 26)
    else if '0' <= c <= '9' then Some(c as int - '0' as int + 52)
    else if c == '+' then Some(62)
    else if c == '/' then Some(63)
    else None
  }

  /** The characters that may appear in an encoding. */
  predicate IsAlphabet(c: char) {
    DigitValue(c).Some?
  }

  /** Digits and their values are inverse; '=' is not a digit. */
  lemma DigitRoundTrip(v: int)
    requires IsSextet(v)
    ensures DigitValue(Digit(v)) == Some(v)
    ensures Digit(v) != '='
  {
  }

  // Splitting three bytes into four sextets and joining them back.

  function Sextet0(b0: Byte): int { b0 / 4 }
  function Sextet1(b0: Byte, b1: Byte): int { (b0 % 4) * 16 + b1 / 16 }
  function Sextet2(b1: Byte, b2: Byte): int { (b1 % 16) * 4 + b2 / 64 }
  function Sextet3(b2: Byte): int { b2 % 64 }

  function Join0(d0: int, d1: int): Byte
    requires IsSextet(d0) && IsSextet(d1)
  { d0 * 4 + d1 / 16 }
  function Join1(d1: int, d2: int): Byte
    requires IsSextet(d1) && IsSextet(d2)
  { (d1 % 16) * 16 + d2 / 4 }
  function Join2(d2: int, d3: int): Byte
    requires IsSextet(d2) && IsSextet(d3)
  { (d2 % 4) * 64 + d3 }

  /** Every sextet is a 6-bit value. */
  lemma SextetBounds(b0: Byte, b1: Byte, b2: Byte)
    ensures IsSextet(Sextet0(b0)) && IsSextet(Sextet1(b0, b1))
    ensures IsSextet(Sextet2(b1, b2)) && IsSextet(Sextet3(b2))
  {
  }

  /** Joining the sextets recovers the bytes. */
  lemma SextetsJoin(b0: Byte, b1: Byte, b2: Byte)
    ensures IsSextet(Sextet0(b0)) && IsSextet(Sextet1(b0, b1))
    ensures IsSextet(Sextet2(b1, b2)) && IsSextet(Sextet3(b2))
    ensures Join0(Sextet0(b0), Sextet1(b0, b1)) == b0
    ensures Join1(Sextet1(b0, b1), Sextet2(b1, b2)) == b1
    ensures Join2(Sextet2(b1, b2), Sextet3(b2)) == b2
  {
  }

  /** Four characters for three bytes. */
  function EncodeGroup(b0: Byte, b1: Byte, b2: Byte): string {
    SextetBounds(b0, b1, b2);
    [Digit(Sextet0(b0)), Digit(Sextet1(b0, b1)), Digit(Sextet2(b1, b2)), Digit(Sextet3(b2))]
  }

  /** `Buffer.from(bytes).toString('base64')`: three bytes per four
      characters, a short last group padded with '='. */
  function Encode(b: seq<Byte>): (r: string)
    ensures |r| == 4 * ((|b| + 2) / 3)
    ensures |r| % 4 == 0
    decreases |b|
  {
    if |b| == 0 then ""
    else if |b| == 1 then
      SextetBounds(b[0], 0, 0);
      [Digit(Sextet0(b[0])), Digit(Sextet1(b[0], 0)), '=', '=']
    else if |b| == 2 then
      SextetBounds(b[0], b[1], 0);
      [Digit(Sextet0(b[0])), Digit(Sextet1(b[0], b[1])), Digit(Sextet2(b[1], 0)), '=']
    else
      EncodedLengthStep(|b|);
      EncodeGroup(b[0], b[1], b[2]) + Encode(b[3..])
  }

  /** Three more bytes make four more characters. */
  lemma EncodedLengthStep(n: int)
    requires n >= 3
    ensures 4 * ((n + 2) / 3) == 4 + 4 * ((n - 3 + 2) / 3)
    ensures (4 + 4 * ((n - 3 + 2) / 3)) % 4 == 0
  {
    assert (n + 2) / 3 == 1 + (n - 3 + 2) / 3;
  }

  /** Every character of an encoding is an alphabet character or '=', and
      '=' appears only in the last two positions. */
  lemma {:induction false} EncodeAlphabet(b: seq<Byte>)
    ensures forall i | 0 <= i < |Encode(b)| ::
      IsAlphabet(Encode(b)[i]) || (Encode(b)[i] == '=' && i >= |Encode(b)| - 2)
    decreases |b|
  {
    SextetBounds(if |b| > 0 then b[0] else 0, if |b| > 1 then b[1] else 0, if |b| > 2 then b[2] else 0);
    if |b| == 1 {
      DigitRoundTrip(Sextet0(b[0]));
      DigitRoundTrip(Sextet1(b[0], 0));
    } else if |b| == 2 {
      DigitRoundTrip(Sextet0(b[0]));
      DigitRoundTrip(Sextet1(b[0], b[1]));
      DigitRoundTrip(Sextet2(b[1], 0));
    } else if |b| >= 3 {
      EncodeAlphabet(b[3..]);
      DigitRoundTrip(Sextet0(b[0]));
      DigitRoundTrip(Sextet1(b[0], b[1]));
      DigitRoundTrip(Sextet2(b[1], b[2]));
      DigitRoundTrip(Sextet3(b[2]));
      var g := EncodeGroup(b[0], b[1], b[2]);
      var t := Encode(b[3..]);
      assert Encode(b) == g + t;
      forall i | 0 <= i < |Encode(b)|
        ensures IsAlphabet(Encode(b)[i]) || (Encode(b)[i] == '=' && i >= |Encode(b)| - 2)
      {
        if i >= 4 {
          assert Encode(b)[i] == t[i - 4];
        }
      }
    }
  }

  /** The decoder: groups of four characters back to bytes; `None` for a
      length that is not a multiple of four, a character outside the
      alphabet or misplaced padding. */
  function Decode(s: string): (r: Option<seq<Byte>>)
    decreases |s|
  {
    if |s| == 0 then Some([])
    else if |s| < 4 then None
    else
      var d0 := DigitValue(s[0]);
      var d1 := DigitValue(s[1]);
      var d2 := DigitValue(s[2]);
      var d3 := DigitValue(s[3]);
      if d0.None? || d1.None? then None
      else if |s| == 4 && s[2] == '=' && s[3] == '=' then
        Some([Join0(d0.value, d1.value)])
      else if |s| == 4 && d2.Some? && s[3] == '=' then
        Some([Join0(d0.value, d1.value), Join1(d1.value, d2.value)])
      else if d2.None? || d3.None? then None
      else match Decode(s[4..])
        case None => None
        case Some(rest) =>
          Some([Join0(d0.value, d1.value), Join1(d1.value, d2.value), Join2(d2.value, d3.value)] + rest)
  }

  /** Decoding an encoding gives back the bytes. */
  lemma {:induction false} DecodeEncode(b: seq<Byte>)
    ensures Decode(Encode(b)) == Some(b)
    decreases |b|
  {
    if |b| == 1 {
      DecodeOneByte(b);
    } else if |b| == 2 {
      DecodeTwoBytes(b);
    } else if |b| >= 3 {
      DecodeEncode(b[3..]);
      DecodeGroupStep(b);
    }
  }

  lemma DecodeOneByte(b: seq<Byte>)
    requires |b| == 1
    ensures Decode(Encode(b)) == Some(b)
  {
    var d0, d1 := Sextet0(b[0]), Sextet1(b[0], 0);
    EncodeOneByte(b);
    DigitRoundTrip(d0);
    DigitRoundTrip(d1);
    DecodeTwoPads(Encode(b), d0, d1);
    JoinAlone(b[0]);
    assert b == [b[0]];
  }

  lemma JoinAlone(b0: Byte)
    ensures IsSextet(Sextet0(b0)) && IsSextet(Sextet1(b0, 0))
    ensures Join0(Sextet0(b0), Sextet1(b0, 0)) == b0
  {
  }

  lemma EncodeOneByte(b: seq<Byte>)
    requires |b| == 1
    ensures IsSextet(Sextet0(b[0])) && IsSextet(Sextet1(b[0], 0))
    ensures Encode(b) == [Digit(Sextet0(b[0])), Digit(Sextet1(b[0], 0)), '=', '=']
  {
    SextetBounds(b[0], 0, 0);
  }

  /** Two digits and two pads decode to one byte. */
  lemma DecodeTwoPads(s: string, d0: int, d1: int)
    requires |s| == 4 && s[2] == '=' && s[3] == '='
    requires DigitValue(s[0]) == Some(d0) && DigitValue(s[1]) == Some(d1)
    ensures Decode(s) == Some([Join0(d0, d1)])
  {
  }

  lemma DecodeTwoBytes(b: seq<Byte>)
    requires |b| == 2
    ensures Decode(Encode(b)) == Some(b)
  {
    SextetsJoin(b[0], b[1], 0);
    DigitRoundTrip(Sextet0(b[0]));
    DigitRoundTrip(Sextet1(b[0], b[1]));
    DigitRoundTrip(Sextet2(b[1], 0));
    var s := Encode(b);
    assert s == [Digit(Sextet0(b[0])), Digit(Sextet1(b[0], b[1])), Digit(Sextet2(b[1], 0)), '='];
    assert b == [b[0], b[1]];
  }

  lemma DecodeGroupStep(b: seq<Byte>)
    requires |b| >= 3
    requires Decode(Encode(b[3..])) == Some(b[3..])
    ensures Decode(Encode(b)) == Some(b)
  {
    EncodedGroup(b);
    DecodeGroupOf(Encode(b), b);
  }

  /** Four digits carrying the sextets of three bytes, followed by a
      decodable remainder, decode to those bytes and that remainder. */
  lemma DecodeGroupOf(s: string, b: seq<Byte>)
    requires |b| >= 3 && |s| >= 4
    requires DigitValue(s[0]) == Some(Sextet0(b[0]))
    requires DigitValue(s[1]) == Some(Sextet1(b[0], b[1]))
    requires DigitValue(s[2]) == Some(Sextet2(b[1], b[2]))
    requires DigitValue(s[3]) == Some(Sextet3(b[2]))
    requires s[3] != '='
    requires Decode(s[4..]) == Some(b[3..])
    ensures Decode(s) == Some(b)
  {
    var d0, d1, d2, d3 := Sextet0(b[0]), Sextet1(b[0], b[1]), Sextet2(b[1], b[2]), Sextet3(b[2]);
    SextetsJoin(b[0], b[1], b[2]);
    assert b == [Join0(d0, d1), Join1(d1, d2), Join2(d2, d3)] + b[3..];
    DecodeGroup(s, d0, d1, d2, d3, b[3..]);
  }

  /** The first four characters of an encoding of at least three bytes are
      the digits of the first three bytes' sextets. */
  lemma EncodedGroup(b: seq<Byte>)
    requires |b| >= 3
    ensures |Encode(b)| >= 4
    ensures DigitValue(Encode(b)[0]) == Some(Sextet0(b[0]))
    ensures DigitValue(Encode(b)[1]) == Some(Sextet1(b[0], b[1]))
    ensures DigitValue(Encode(b)[2]) == Some(Sextet2(b[1], b[2]))
    ensures DigitValue(Encode(b)[3]) == Some(Sextet3(b[2]))
    ensures Encode(b)[3] != '='
    ensures Encode(b)[4..] == Encode(b[3..])
  {
    SextetsJoin(b[0], b[1], b[2]);
    var d0, d1, d2, d3 := Sextet0(b[0]), Sextet1(b[0], b[1]), Sextet2(b[1], b[2]), Sextet3(b[2]);
    DigitRoundTrip(d0);
    DigitRoundTrip(d1);
    DigitRoundTrip(d2);
    DigitRoundTrip(d3);
    assert Encode(b) == [Digit(d0), Digit(d1), Digit(d2), Digit(d3)] + Encode(b[3..]);
  }

  /** One unpadded group followed by more characters. */
  lemma DecodeGroup(s: string, d0: int, d1: int, d2: int, d3: int, rest: seq<Byte>)
    requires |s| >= 4
    requires DigitValue(s[0]) == Some(d0) && DigitValue(s[1]) == Some(d1)
    requires DigitValue(s[2]) == Some(d2) && DigitValue(s[3]) == Some(d3)
    requires s[3] != '='
    requires Decode(s[4..]) == Some(rest)
    ensures Decode(s) == Some([Join0(d0, d1), Join1(d1, d2), Join2(d2, d3)] + rest)
  {
  }

  /** Different byte strings have different encodings. */
  lemma EncodeInjective(a: seq<Byte>, b: seq<Byte>)
    requires Encode(a) == Encode(b)
    ensures a == b
  {
    DecodeEncode(a);
    DecodeEncode(b);
  }

  /** The test vectors of section 10 of RFC 4648. */
  lemma TestVectors()
    ensures Encode([]) == ""
    ensures Encode([0x66]) == "Zg=="
    ensures Encode([0x66, 0x6f]) == "Zm8="
    ensures Encode([0x66, 0x6f, 0x6f]) == "Zm9v"
    ensures Encode([0x66, 0x6f, 0x6f, 0x62, 0x61, 0x72]) == "Zm9vYmFy"
  {
    var foobar: seq<Byte> := [0x66, 0x6f, 0x6f, 0x62, 0x61, 0x72];
    assert foobar[3..] == [0x62, 0x61, 0x72];
  }
}

=== FILE: channels.dfy ===
/**
 The catalog loader: raw records become channels, one for one, in order.
 */
module Channels {
  import opened Types

  /** `transformChannel`: keeps id, name, logo and stream URL; the URL is
      copied as stored, whatever the record's `_encoded` flag says. */
  function TransformChannel(raw: RawChannel): Channel {
    Channel(raw.itemId, raw.name, raw.imageUrl, raw.m3u8Url)
  }

  /** `loadChannels`: an order-preserving map of `TransformChannel`. */
  function LoadChannels(raws: seq<RawChannel>): (cs: seq<Channel>)
    ensures |cs| == |raws|
    ensures forall i | 0 <= i < |raws| ::
      && cs[i].id == raws[i].itemId
      && cs[i].name == raws[i].name
      && cs[i].logo == raws[i].imageUrl
      && cs[i].url == raws[i].m3u8Url
    decreases |raws|
  {
    if raws == [] then []
    else [TransformChannel(raws[0])] + LoadChannels(raws[1..])
  }

  /** Two records load to the same channel exactly when they agree on id,
      name, logo and stream URL: description and every other key are dropped. */
  lemma TransformChannelKeeps(r1: RawChannel, r2: RawChannel)
    ensures TransformChannel(r1) == TransformChannel(r2)
        <==> (r1.itemId == r2.itemId && r1.name == r2.name
              && r1.imageUrl == r2.imageUrl && r1.m3u8Url == r2.m3u8Url)
  {
  }

  /** Loading commutes with concatenating catalogs, so order is preserved. */
  lemma {:induction false} LoadChannelsConcat(a: seq<RawChannel>, b: seq<RawChannel>)
    ensures LoadChannels(a + b) == LoadChannels(a) + LoadChannels(b)
    decreases |a|
  {
    if a == [] {
      assert a + b == b;
    } else {
      assert (a + b)[1..] == a[1..] + b;
      LoadChannelsConcat(a[1..], b);
    }
  }
}

=== FILE: download_assets.dfy ===
/**
 The logo localisation script: every record whose `image_url` is an http(s)
 address has the image downloaded to `logos/<item_id><ext>` and, when the
 download succeeds, its `image_url` replaced by `/logos/<item_id><ext>`.
 The catalog is saved again only if at least one download succeeded.
 Whether each download succeeds is an input (`downloadOk`, by position).
 */
module DownloadAssets {
  import opened Js
  import opened Types
  import NodePath

  /** The extensions kept as they are. */
  predicate IsKnownExtension(e: string) {
    e == ".png" || e == ".jpg" || e == ".jpeg" || e == ".webp"
  }

  /** `getExtension(url)`: the lower-cased extension, cut at the first
      '?', when it is a known one, and ".jpg" otherwise. */
  function GetExtension(url: string): (r: string)
    ensures IsKnownExtension(r)
    ensures IsKnownExtension(ToLower(BeforeQuestionMark(NodePath.ExtName(url)))) ==>
      r == ToLower(BeforeQuestionMark(NodePath.ExtName(url)))
    ensures !IsKnownExtension(ToLower(BeforeQuestionMark(NodePath.ExtName(url)))) ==> r == ".jpg"
  {
    var ext := ToLower(BeforeQuestionMark(NodePath.ExtName(url)));
    if IsKnownExtension(ext) then ext else ".jpg"
  }

  /** For a URL ending in `stem + ext + query`, the extension is `ext`
      lower-cased when that is a known one, and ".jpg" otherwise. */
  lemma GetExtensionOfUrl(dir: string, stem: string, ext: string, query: string)
    requires stem != [] && '.' !in stem && '/' !in stem
    requires |ext| >= 1 && ext[0] == '.' && '.' !in ext[1..] && '/' !in ext && '?' !in ext
    requires query == [] || (query[0] == '?' && '.' !in query && '/' !in query)
    requires dir == [] || dir[|dir| - 1] == '/'
    ensures GetExtension(dir + stem + ext + query) ==
      if IsKnownExtension(ToLower(ext)) then ToLower(ext) else ".jpg"
  {
    var tail := ext + query;
    assert tail[0] == '.';
    assert tail[1..] == ext[1..] + query;
    assert dir + stem + ext + query == dir + stem + tail;
    NodePath.ExtNameOfFile(dir, stem, tail);
    BeforeQuestionMarkOf(ext, query);
  }

  lemma BeforeQuestionMarkOf(ext: string, query: string)
    requires '?' !in ext
    requires query == [] || query[0] == '?'
    ensures BeforeQuestionMark(ext + query) == ext
  {
    var s := ext + query;
    assert s[..|ext|] == ext;
  }

  /** The records the script downloads a logo for. */
  predicate IsRemoteLogo(c: RawChannel) {
    c.imageUrl != "" && StartsWith(c.imageUrl, "http")
  }

  /** `/logos/<item_id><ext>` */
  function LocalPath(c: RawChannel): string {
    "/logos/" + c.itemId + GetExtension(c.imageUrl)
  }

  /** A local path is never a remote logo address. */
  lemma LocalPathNotRemote(c: RawChannel)
    ensures !StartsWith(LocalPath(c), "http")
  {
    assert LocalPath(c)[0] == '/';
  }

  /** The effect of one iteration of the loop on its record, given the
      outcome of its download: the logo is localised when it was remote and
      the download succeeded. */
  function LocalizeLogo(c: RawChannel, downloaded: bool): (r: RawChannel)
  {
    if IsRemoteLogo(c) && downloaded then c.(imageUrl := LocalPath(c)) else c
  }

  /** A record changes exactly when its logo was remote and downloaded, and
      then only its `image_url` changes, to the local path. */
  lemma LocalizeLogoChanges(c: RawChannel, downloaded: bool)
    ensures LocalizeLogo(c, downloaded) != c <==> IsRemoteLogo(c) && downloaded
    ensures LocalizeLogo(c, downloaded).(imageUrl := c.imageUrl) == c
    ensures LocalizeLogo(c, downloaded) != c ==> LocalizeLogo(c, downloaded).imageUrl == LocalPath(c)
  {
    if IsRemoteLogo(c) && downloaded {
      LocalPathNotRemote(c);
    }
  }

  /** A localised logo is not remote any more, so a second run leaves it
      alone whatever its download would do. */
  lemma LocalizeLogoSettles(c: RawChannel, first: bool, second: bool)
    requires IsRemoteLogo(c) && first
    ensures !IsRemoteLogo(LocalizeLogo(c, first))
    ensures LocalizeLogo(LocalizeLogo(c, first), second) == LocalizeLogo(c, first)
  {
    LocalPathNotRemote(c);
  }

  /** The number of records among the first `n` whose download was
      attempted and succeeded. */
  function DownloadedCount(channels: seq<RawChannel>, downloadOk: nat -> bool, n: nat): (k: nat)
    requires n <= |channels|
    ensures k <= n
  {
    if n == 0 then 0
    else
      var last := if IsRemoteLogo(channels[n - 1]) && downloadOk(n - 1) then 1 else 0;
      DownloadedCount(channels, downloadOk, n - 1) + last
  }

  /** Some record's logo was downloaded. */
  predicate AnyDownloaded(channels: seq<RawChannel>, downloadOk: nat -> bool) {
    exists i | 0 <= i < |channels| :: IsRemoteLogo(channels[i]) && downloadOk(i)
  }

  /** The count is positive exactly when some record among the first `n`
      had its logo downloaded. */
  lemma {:induction false} DownloadedCountPositive(channels: seq<RawChannel>, downloadOk: nat -> bool, n: nat)
    requires n <= |channels|
    ensures DownloadedCount(channels, downloadOk, n) > 0 <==>
      exists i | 0 <= i < n :: IsRemoteLogo(channels[i]) && downloadOk(i)
  {
    if n > 0 {
      DownloadedCountPositive(channels, downloadOk, n - 1);
    }
  }

  /** What `processChannels` leaves behind: the catalog as modified in
      memory, `updatedCount`, and the catalog written back to the file
      (`None` when the file is left alone). */
  datatype Outcome = Outcome(catalog: seq<RawChannel>, updatedCount: nat, saved: Option<seq<RawChannel>>)

  /** `processChannels`: every record goes through one iteration of the
      loop; the catalog is saved only when some logo was localised. */
  function ProcessChannels(channels: seq<RawChannel>, downloadOk: nat -> bool): (r: Outcome)
    ensures |r.catalog| == |channels|
    ensures r.updatedCount <= |channels|
    ensures r.saved.Some? <==> AnyDownloaded(channels, downloadOk)
    ensures r.saved.Some? ==> r.saved.value == r.catalog
  {
    var catalog := seq(|channels|, i requires 0 <= i < |channels| => LocalizeLogo(channels[i], downloadOk(i)));
    var updatedCount := DownloadedCount(channels, downloadOk, |channels|);
    DownloadedCountPositive(channels, downloadOk, |channels|);
    Outcome(catalog, updatedCount, if updatedCount > 0 then Some(catalog) else None)
  }

  /** Record `i` of the result is changed exactly when its logo was remote
      and its download succeeded; it then points at its local file. */
  lemma ProcessChannelsAt(channels: seq<RawChannel>, downloadOk: nat -> bool, i: nat)
    requires i < |channels|
    ensures var r := ProcessChannels(channels, downloadOk).catalog[i];
      && (r != channels[i] <==> IsRemoteLogo(channels[i]) && downloadOk(i))
      && r.(imageUrl := channels[i].imageUrl) == channels[i]
      && (r != channels[i] ==> r.imageUrl == LocalPath(channels[i]))
  {
    LocalizeLogoChanges(channels[i], downloadOk(i));
  }

  /** The number of positions below `n` where `a` and `b` differ. */
  function Differences(a: seq<RawChannel>, b: seq<RawChannel>, n: nat): nat
    requires n <= |a| && n <= |b|
  {
    if n == 0 then 0
    else Differences(a, b, n - 1) + if a[n - 1] != b[n - 1] then 1 else 0
  }

  /** `updatedCount` is the number of records the run changed. */
  lemma UpdatedCountCountsChanges(channels: seq<RawChannel>, downloadOk: nat -> bool)
    ensures var r := ProcessChannels(channels, downloadOk);
      r.updatedCount == Differences(r.catalog, channels, |channels|)
  {
    var catalog := ProcessChannels(channels, downloadOk).catalog;
    forall i | 0 <= i < |channels|
      ensures catalog[i] != channels[i] <==> IsRemoteLogo(channels[i]) && downloadOk(i)
    {
      ProcessChannelsAt(channels, downloadOk, i);
    }
    CountsAgree(channels, downloadOk, catalog, |channels|);
  }

  /** Counting the changed positions counts the downloads. */
  lemma {:induction false} CountsAgree(channels: seq<RawChannel>, downloadOk: nat -> bool,
                                      catalog: seq<RawChannel>, n: nat)
    requires n <= |channels| == |catalog|
    requires forall i | 0 <= i < |channels| ::
      catalog[i] != channels[i] <==> IsRemoteLogo(channels[i]) && downloadOk(i)
    ensures DownloadedCount(channels, downloadOk, n) == Differences(catalog, channels, n)
  {
    if n > 0 {
      CountsAgree(channels, downloadOk, catalog, n - 1);
    }
  }

  /** Running the script again touches only the records whose first
      download failed: every record localised by the first run is kept. */
  lemma RerunKeepsLocalized(channels: seq<RawChannel>, first: nat -> bool, second: nat -> bool, i: nat)
    requires i < |channels|
    requires IsRemoteLogo(channels[i]) && first(i)
    ensures var once := ProcessChannels(channels, first).catalog;
      ProcessChannels(once, second).catalog[i] == once[i]
  {
    LocalizeLogoSettles(channels[i], first(i), second(i));
  }

  /** When every download succeeds, a second run changes nothing and saves
      nothing. */
  lemma {:induction false} RerunAfterFullSuccess(channels: seq<RawChannel>, first: nat -> bool, second: nat -> bool)
    requires forall i | 0 <= i < |channels| :: first(i)
    ensures var once := ProcessChannels(channels, first).catalog;
      && ProcessChannels(once, second).catalog == once
      && ProcessChannels(once, second).saved.None?
  {
    var once := ProcessChannels(channels, first).catalog;
    var twice := ProcessChannels(once, second).catalog;
    forall i | 0 <= i < |channels|
      ensures !IsRemoteLogo(once[i]) && twice[i] == once[i]
    {
      assert once[i] == LocalizeLogo(channels[i], first(i));
      assert twice[i] == LocalizeLogo(once[i], second(i));
      if IsRemoteLogo(channels[i]) {
        assert first(i);
        LocalizeLogoSettles(channels[i], first(i), second(i));
      }
    }
  }
}

=== FILE: encode_channels.dfy ===
/**
 The offline obfuscation of stream URLs: each UTF-16 code unit of the URL
 is XOR-ed with the repeating key "ZapTV2026", the units are written as
 Latin-1 bytes (low eight bits) and the bytes are base 64 encoded. Every
 record of the catalog gets its `m3u8_url` obfuscated this way and an
 `_encoded: true` flag.
 */
module EncodeChannels {
  import opened Js
  import opened Types
  import Base64
  import Channels

  const ObfuscationKey: string := "ZapTV2026"

  /** A UTF-16 code unit, the element of a JavaScript string. */
  type CodeUnit = u: int | 0 <= u < 0x1_0000

  function Pow2(n: nat): (r: nat)
    ensures r >= 1
  {
    if n == 0 then 1 else 2 * Pow2(n - 1)
  }

  /** Bitwise exclusive or of two non-negative integers (JavaScript `^` on
      values below 2^31). */
  function Xor(a: nat, b: nat): nat
    decreases a + b
  {
    if a == 0 && b == 0 then 0
    else 2 * Xor(a / 2, b / 2) + (if a % 2 == b % 2 then 0 else 1)
  }

  /** XOR-ing twice with the same value gives back the original. */
  lemma {:induction false} XorTwice(a: nat, k: nat)
    ensures Xor(Xor(a, k), k) == a
    decreases a + k
  {
    if a == 0 && k == 0 {
    } else {
      var x := Xor(a, k);
      var bit := if a % 2 == k % 2 then 0 else 1;
      assert x == 2 * Xor(a / 2, k / 2) + bit;
      assert x / 2 == Xor(a / 2, k / 2) && x % 2 == bit;
      XorTwice(a / 2, k / 2);
    }
  }

  lemma Pow2Values()
    ensures Pow2(8) == 256 && Pow2(16) == 0x1_0000
  {
    assert Pow2(4) == 16;
    assert Pow2(8) == 256;
    assert Pow2(12) == 4096;
  }

  /** XOR of two n-bit values is an n-bit value. */
  lemma {:induction false} XorBound(a: nat, b: nat, n: nat)
    requires a < Pow2(n) && b < Pow2(n)
    ensures Xor(a, b) < Pow2(n)
    decreases n
  {
    if a == 0 && b == 0 {
    } else if n == 0 {
    } else {
      XorBound(a / 2, b / 2, n - 1);
    }
  }

  /** The key's code unit used at position `i`: the key repeats. */
  function KeyUnit(i: nat): (k: nat)
    ensures k < 128
  {
    var c := ObfuscationKey[i % |ObfuscationKey|];
    c as int
  }

  /** The key repeats every nine positions and starts with 'Z'. */
  lemma KeyRepeats(i: nat)
    ensures KeyUnit(i + |ObfuscationKey|) == KeyUnit(i)
    ensures KeyUnit(0) == 'Z' as int
  {
    assert (i + 9) % 9 == i % 9;
  }

  /** XOR with a value below `2^n` leaves every bit from bit `n` upwards as
      it is. */
  lemma {:induction false} XorKeepsHighBits(a: nat, k: nat, n: nat)
    requires k < Pow2(n)
    ensures Xor(a, k) / Pow2(n) == a / Pow2(n)
    decreases n
  {
    if n == 0 {
      XorZero(a);
    } else {
      var bit := if a % 2 == k % 2 then 0 else 1;
      var x := Xor(a / 2, k / 2);
      if a == 0 && k == 0 {
      } else {
        assert Xor(a, k) == 2 * x + bit;
        XorKeepsHighBits(a / 2, k / 2, n - 1);
        HalveDiv(2 * x + bit, Pow2(n - 1));
        HalveDiv(a, Pow2(n - 1));
        assert (2 * x + bit) / 2 == x;
      }
    }
  }

  /** XOR with 0 is the identity. */
  lemma {:induction false} XorZero(a: nat)
    ensures Xor(a, 0) == a
    decreases a
  {
    if a != 0 {
      XorZero(a / 2);
    }
  }

  /** Dividing by `2m` is halving, then dividing by `m`. */
  lemma HalveDiv(a: nat, m: nat)
    requires m >= 1
    ensures a / (2 * m) == (a / 2) / m
  {
    var h := a / 2;
    var q := h / m;
    var r := h % m;
    assert h == q * m + r;
    var d := 2 * m;
    assert q * d == 2 * (q * m);
    assert a == q * d + (2 * r + a % 2);
    DivUnique(a, d, q, 2 * r + a % 2);
  }

  /** The quotient is the one number that leaves a remainder in range. */
  lemma DivUnique(a: int, d: int, q: int, r: int)
    requires d >= 1 && 0 <= r < d && a == q * d + r
    ensures a / d == q
  {
    var q0 := a / d;
    var r0 := a % d;
    assert a == q0 * d + r0 && 0 <= r0 < d;
    assert (q - q0) * d == r0 - r;
    if q > q0 {
      MulAtLeast(q - q0, d);
    } else if q < q0 {
      MulAtLeast(q0 - q, d);
    }
  }

  lemma MulAtLeast(k: int, d: int)
    requires k >= 1 && d >= 1
    ensures k * d >= d
  {
  }

  /** The key is ASCII, so XOR with a key unit changes only the low seven
      bits of a code unit. */
  lemma KeyChangesLowBits(u: nat, i: nat)
    ensures Xor(u, KeyUnit(i)) / 128 == u / 128
  {
    assert Pow2(7) == 128;
    XorKeepsHighBits(u, KeyUnit(i), 7);
  }

  /** The UTF-16 code units of a string (`charCodeAt` over `0 .. length`):
      one unit for a character below U+10000, a surrogate pair above. */
  function Utf16(s: string): (u: seq<CodeUnit>)
    ensures |u| >= |s|
    ensures (forall i | 0 <= i < |s| :: s[i] as int < 0x1_0000) ==>
      |u| == |s| && forall i | 0 <= i < |s| :: u[i] == s[i] as int
    decreases |s|
  {
    if s == [] then []
    else
      var c := s[0] as int;
      var first: seq<CodeUnit> :=
        if c < 0x1_0000 then [c]
        else [0xD800 + (c - 0x1_0000) / 0x400, 0xDC00 + (c - 0x1_0000) % 0x400];
      first + Utf16(s[1..])
  }

  /** One step of the XOR loop: `text.charCodeAt(i) ^ key.charCodeAt(i % 9)`. */
  function KeyedUnit(u: CodeUnit, i: nat): (r: CodeUnit)
    ensures r == Xor(u, KeyUnit(i))
    ensures u < 256 ==> r < 256
  {
    Pow2Values();
    XorBound(u, KeyUnit(i), 16);
    if u < 256 then XorBound(u, KeyUnit(i), 8); Xor(u, KeyUnit(i))
    else Xor(u, KeyUnit(i))
  }

  /** The XOR loop of `encode`: unit `i` is XOR-ed with key unit `i`. */
  function XorWithKey(units: seq<CodeUnit>): (r: seq<CodeUnit>)
    ensures |r| == |units|
    ensures forall i | 0 <= i < |units| :: r[i] == KeyedUnit(units[i], i)
    ensures forall i | 0 <= i < |units| && units[i] < 256 :: r[i] < 256
    ensures forall i | 0 <= i < |units| :: r[i] / 128 == units[i] / 128
  {
    forall i | 0 <= i < |units|
      ensures KeyedUnit(units[i], i) / 128 == units[i] / 128
    {
      KeyChangesLowBits(units[i], i);
    }
    seq(|units|, i requires 0 <= i < |units| => KeyedUnit(units[i], i))
  }

  /** The XOR loop undoes itself: applying it twice gives every unit back. */
  lemma XorWithKeyTwice(units: seq<CodeUnit>)
    ensures XorWithKey(XorWithKey(units)) == units
  {
    var twice := XorWithKey(XorWithKey(units));
    forall i | 0 <= i < |units|
      ensures twice[i] == units[i]
    {
      XorTwice(units[i], KeyUnit(i));
    }
  }

  /** `Buffer.from(str, 'binary')`: each code unit keeps its low eight bits. */
  function Latin1(units: seq<CodeUnit>): (b: seq<Byte>)
    ensures |b| == |units|
    ensures forall i | 0 <= i < |units| :: b[i] == units[i] % 256
    ensures forall i | 0 <= i < |units| && units[i] < 256 :: b[i] == units[i]
  {
    seq(|units|, i requires 0 <= i < |units| => units[i] % 256)
  }

  /** Units that already fit a byte pass through `'binary'` unchanged. */
  lemma Latin1OfBytes(units: seq<CodeUnit>)
    requires forall i | 0 <= i < |units| :: units[i] < 256
    ensures forall i | 0 <= i < |units| :: Latin1(units)[i] == units[i]
  {
    forall i | 0 <= i < |units|
      ensures Latin1(units)[i] == units[i]
    {
      LowByte(units[i]);
    }
  }

  /** `encode(text)` */
  function Encode(text: string): (r: string)
    ensures |r| == 4 * ((|Utf16(text)| + 2) / 3)
  {
    Base64.Encode(Latin1(XorWithKey(Utf16(text))))
  }

  /** Text all of whose characters are below U+0100. */
  predicate IsLatin1Text(s: string) {
    forall i | 0 <= i < |s| :: s[i] as int < 256
  }

  /** An inverse of `encode`, defined only to state what the obfuscation
      keeps; no code of the program decodes. Base 64 decode, XOR each byte
      with the key again, read each byte as a character. */
  function Reveal(encoded: string): (r: Option<string>)
    ensures r.Some? ==> IsLatin1Text(r.value)
  {
    match Base64.Decode(encoded)
    case None => None
    case Some(bytes) => Some(Unmask(bytes))
  }

  /** XOR each byte with its key unit again and read it as a character. */
  function Unmask(bytes: seq<Byte>): (r: string)
    ensures |r| == |bytes|
    ensures forall i | 0 <= i < |bytes| :: r[i] as int == KeyedUnit(bytes[i], i)
    ensures IsLatin1Text(r)
  {
    seq(|bytes|, i requires 0 <= i < |bytes| => KeyedUnit(bytes[i], i) as char)
  }

  /** For Latin-1 text the obfuscation loses nothing: revealing an encoding
      gives the text back. */
  lemma RevealEncode(text: string)
    requires IsLatin1Text(text)
    ensures Reveal(Encode(text)) == Some(text)
  {
    var bytes := Latin1(XorWithKey(Utf16(text)));
    LatinBytes(text);
    assert Encode(text) == Base64.Encode(bytes);
    Base64.DecodeEncode(bytes);
    UnmaskMasked(text, bytes);
  }

  /** Unmasking the masked bytes of a Latin-1 text restores the text. */
  lemma UnmaskMasked(text: string, bytes: seq<Byte>)
    requires IsLatin1Text(text)
    requires |bytes| == |text|
    requires forall i | 0 <= i < |text| :: bytes[i] == KeyedUnit(text[i] as int, i)
    ensures Unmask(bytes) == text
  {
    var r := Unmask(bytes);
    forall i | 0 <= i < |text|
      ensures r[i] == text[i]
    {
      XorTwice(text[i] as int, KeyUnit(i));
    }
  }

  /** The bytes of a Latin-1 text are its XOR-ed characters. */
  lemma LatinBytes(text: string)
    requires IsLatin1Text(text)
    ensures var bytes := Latin1(XorWithKey(Utf16(text)));
      |bytes| == |text| && forall i | 0 <= i < |text| :: bytes[i] == KeyedUnit(text[i] as int, i)
  {
    var units := Utf16(text);
    Utf16OfLatin1(text);
    var xored := XorWithKey(units);
    var bytes := Latin1(xored);
    forall i | 0 <= i < |text|
      ensures bytes[i] == KeyedUnit(text[i] as int, i)
    {
      var k := KeyedUnit(units[i], i);
      assert xored[i] == k;
      LowByte(k);
    }
  }

  /** Below U+0100 every character is one code unit, its own value. */
  lemma Utf16OfLatin1(text: string)
    requires IsLatin1Text(text)
    ensures |Utf16(text)| == |text|
    ensures forall i | 0 <= i < |text| :: Utf16(text)[i] == text[i] as int < 256
  {
    assert forall i | 0 <= i < |text| :: text[i] as int < 0x1_0000;
  }

  lemma LowByte(k: int)
    requires 0 <= k < 256
    ensures k % 256 == k
  {
  }

  /** Two XORs with the first key unit, 'Z' = 90. */
  lemma XorSamples()
    ensures KeyUnit(0) == 90
    ensures Xor(256, 90) == 346
    ensures Xor(0, 90) == 90
  {
    assert Xor(1, 0) == 1;
    assert Xor(2, 1) == 3;
    assert Xor(4, 2) == 6;
    assert Xor(8, 5) == 13;
    assert Xor(16, 11) == 27;
    assert Xor(32, 22) == 54;
    assert Xor(64, 45) == 109;
    assert Xor(128, 90) == 218;
    assert Xor(0, 1) == 1;
    assert Xor(0, 2) == 2;
    assert Xor(0, 5) == 5;
    assert Xor(0, 11) == 11;
    assert Xor(0, 22) == 22;
    assert Xor(0, 45) == 45;
  }

  /** Beyond Latin-1 the obfuscation is lossy: U+0100 and U+0000 encode
      alike, since only the low byte of each XOR-ed unit is kept. */
  lemma EncodeLossyBeyondLatin1()
    ensures Encode("\U{100}") == Encode("\U{0}")
  {
    SameBytes();
    assert Encode("\U{100}") == Base64.Encode(Latin1(XorWithKey(Utf16("\U{100}"))));
    assert Encode("\U{0}") == Base64.Encode(Latin1(XorWithKey(Utf16("\U{0}"))));
  }

  lemma SameBytes()
    ensures Latin1(XorWithKey(Utf16("\U{100}"))) == Latin1(XorWithKey(Utf16("\U{0}")))
  {
    XorSamples();
    assert Utf16("\U{100}") == [256];
    assert Utf16("\U{0}") == [0];
    MaskedSingle([256], 90);
    MaskedSingle([0], 90);
  }

  /** The byte a one-unit text is masked to. */
  lemma MaskedSingle(units: seq<CodeUnit>, k: nat)
    requires |units| == 1 && Xor(units[0], KeyUnit(0)) % 256 == k
    ensures Latin1(XorWithKey(units)) == [k]
  {
    assert XorWithKey(units)[0] == Xor(units[0], KeyUnit(0));
  }

  /** The record map of the script: the stream URL is obfuscated, the flag
      `_encoded: true` is added, every other field is kept. */
  function EncodeRecord(raw: RawChannel): (r: RawChannel)
    ensures r.m3u8Url == Encode(raw.m3u8Url)
    ensures r.rest == raw.rest["_encoded" := JBool(true)]
    ensures r.(m3u8Url := raw.m3u8Url, rest := raw.rest) == raw
  {
    raw.(m3u8Url := Encode(raw.m3u8Url), rest := raw.rest["_encoded" := JBool(true)])
  }

  /** `channels.map(...)` over the whole catalog. */
  function EncodeCatalog(raws: seq<RawChannel>): (r: seq<RawChannel>)
    ensures |r| == |raws|
    ensures forall i | 0 <= i < |raws| :: r[i] == EncodeRecord(raws[i])
  {
    seq(|raws|, i requires 0 <= i < |raws| => EncodeRecord(raws[i]))
  }

  /** The encoding keeps records well formed. */
  lemma EncodeRecordWellFormed(raw: RawChannel)
    requires WellFormed(raw)
    ensures WellFormed(EncodeRecord(raw))
  {
  }

  /** Were the encoded catalog (`channels.encoded.json`, which nothing in
      the program reads; the player imports `channels.json`) given to
      `loadChannels`, it would yield the same channels as the plain one
      except for the stream URL, which would be the obfuscated text as
      stored: the loader does not decode. */
  lemma LoadEncodedCatalog(raws: seq<RawChannel>)
    ensures var plain := Channels.LoadChannels(raws);
      var loaded := Channels.LoadChannels(EncodeCatalog(raws));
      && |loaded| == |plain|
      && forall i | 0 <= i < |plain| ::
        loaded[i] == plain[i].(url := Encode(raws[i].m3u8Url))
  {
  }

  /** In that hypothetical load, a stream URL that was Latin-1 text would
      be recovered by `Reveal`. */
  lemma RevealLoadedUrl(raws: seq<RawChannel>, i: nat)
    requires i < |raws|
    requires IsLatin1Text(raws[i].m3u8Url)
    ensures Reveal(Channels.LoadChannels(EncodeCatalog(raws))[i].url) == Some(raws[i].m3u8Url)
  {
    RevealEncode(raws[i].m3u8Url);
  }
}

=== FILE: favorites.dfy ===
/**
 Favourites: the display order (favourites first, then by name) and the
 fail-soft persistence of the favourite id list in a key-value store.

 `localeCompare` is an abstract comparison: `nameLe(a, b)` stands for
 `a.localeCompare(b) <= 0` and is assumed to be a total preorder. JSON
 encoding of the id list is an abstract codec.
 */
module Favorites {
  import opened Js
  import opened Types
  import opened Seqs
  import StableSort

  /** The one storage key the favourites live under. */
  const FavoritesKey: string := "favoriteChannelIds"

  /** The comparator of `sortChannelsWithFavorites`, read as "may precede":
      a favourite precedes a non-favourite; otherwise names decide. */
  function FavoritesFirst(favoriteIds: seq<string>, nameLe: (string, string) -> bool): (Channel, Channel) -> bool {
    (a: Channel, b: Channel) =>
      (a.id in favoriteIds && b.id !in favoriteIds)
      || ((a.id in favoriteIds <==> b.id in favoriteIds) && nameLe(a.name, b.name))
  }

  /** The name order alone, lifted to channels. */
  function ByName(nameLe: (string, string) -> bool): (Channel, Channel) -> bool {
    (a: Channel, b: Channel) => nameLe(a.name, b.name)
  }

  /** Membership of a channel in the favourite set. */
  function IsFavoriteChannel(favoriteIds: seq<string>): Channel -> bool {
    (c: Channel) => c.id in favoriteIds
  }

  function IsOtherChannel(favoriteIds: seq<string>): Channel -> bool {
    (c: Channel) => c.id !in favoriteIds
  }

  lemma FavoritesFirstIsPreorder(favoriteIds: seq<string>, nameLe: (string, string) -> bool)
    requires StableSort.TotalPreorder(nameLe)
    ensures StableSort.TotalPreorder(FavoritesFirst(favoriteIds, nameLe))
  {
    var le := FavoritesFirst(favoriteIds, nameLe);
    forall a, b, c | le(a, b) && le(b, c) ensures le(a, c) {
      if (a.id in favoriteIds) == (c.id in favoriteIds) {
        assert nameLe(a.name, b.name) && nameLe(b.name, c.name);
      }
    }
    forall a, b ensures le(a, b) || le(b, a) {
      assert nameLe(a.name, b.name) || nameLe(b.name, a.name);
    }
  }

  lemma ByNameIsPreorder(nameLe: (string, string) -> bool)
    requires StableSort.TotalPreorder(nameLe)
    ensures StableSort.TotalPreorder(ByName(nameLe))
  {
    var le := ByName(nameLe);
    forall a, b, c | le(a, b) && le(b, c) ensures le(a, c) {
      assert nameLe(a.name, b.name) && nameLe(b.name, c.name);
    }
    forall a, b ensures le(a, b) || le(b, a) {
      assert nameLe(a.name, b.name) || nameLe(b.name, a.name);
    }
  }

  /** `sortChannelsWithFavorites`: a sorted copy of the channels. */
  function SortChannelsWithFavorites(channels: seq<Channel>, favoriteIds: seq<string>,
                                     nameLe: (string, string) -> bool): (r: seq<Channel>)
    requires StableSort.TotalPreorder(nameLe)
    ensures multiset(r) == multiset(channels)
    ensures forall i, j | 0 <= i < j < |r| && r[j].id in favoriteIds :: r[i].id in favoriteIds
    ensures forall i, j | 0 <= i < j < |r| && (r[i].id in favoriteIds <==> r[j].id in favoriteIds) ::
      nameLe(r[i].name, r[j].name)
  {
    var le := FavoritesFirst(favoriteIds, nameLe);
    FavoritesFirstIsPreorder(favoriteIds, nameLe);
    StableSort.SortSorted(le, channels);
    StableSort.SortPermutes(le, channels);
    var r := StableSort.Sort(le, channels);
    assert forall i, j | 0 <= i < j < |r| :: le(r[i], r[j]);
    r
  }

  /** Channels that compare equal (same group, names tied) keep their
      catalog order. */
  lemma SortChannelsStable(channels: seq<Channel>, favoriteIds: seq<string>,
                           nameLe: (string, string) -> bool, c: Channel)
    requires StableSort.TotalPreorder(nameLe)
    ensures var tied := StableSort.TiedWith(FavoritesFirst(favoriteIds, nameLe), c);
      Filter(tied, SortChannelsWithFavorites(channels, favoriteIds, nameLe)) == Filter(tied, channels)
  {
    FavoritesFirstIsPreorder(favoriteIds, nameLe);
    StableSort.SortStable(FavoritesFirst(favoriteIds, nameLe), channels, c);
  }

  /** Only the favourite status of the listed channels matters: ids matching
      no channel have no effect on the order. */
  lemma SortIgnoresUnmatchedIds(channels: seq<Channel>, favs1: seq<string>, favs2: seq<string>,
                                nameLe: (string, string) -> bool)
    requires StableSort.TotalPreorder(nameLe)
    requires forall i | 0 <= i < |channels| :: channels[i].id in favs1 <==> channels[i].id in favs2
    ensures SortChannelsWithFavorites(channels, favs1, nameLe) == SortChannelsWithFavorites(channels, favs2, nameLe)
  {
    StableSort.SortAgree(FavoritesFirst(favs1, nameLe), FavoritesFirst(favs2, nameLe), channels);
  }

  /** Within one group, tie classes of the group's own name sort are those
      of the catalog. */
  lemma GroupTies(channels: seq<Channel>, nameLe: (string, string) -> bool,
                  tf: Channel -> bool, group: Channel -> bool, y: Channel)
    requires StableSort.TotalPreorder(nameLe)
    requires forall x :: tf(x) == (StableSort.TiedWith(ByName(nameLe), y)(x) && group(x))
    ensures Filter(tf, StableSort.Sort(ByName(nameLe), Filter(group, channels))) == Filter(tf, channels)
  {
    var bn := ByName(nameLe);
    var tb := StableSort.TiedWith(bn, y);
    var g := Filter(group, channels);
    var l := StableSort.Sort(bn, g);
    ByNameIsPreorder(nameLe);
    StableSort.SortPermutes(bn, g);
    forall i | 0 <= i < |l| ensures tf(l[i]) == tb(l[i]) {
      assert l[i] in multiset(l);
      assert l[i] in g;
    }
    FilterAgree(tf, tb, l);
    StableSort.SortStable(bn, g, y);
    FilterFilter(tb, group, tf, channels);
  }

  /** A group none of whose members is tied with `y` contributes nothing to
      `y`'s tie class. */
  lemma GroupNoTies(channels: seq<Channel>, nameLe: (string, string) -> bool,
                    tf: Channel -> bool, group: Channel -> bool)
    requires forall x :: group(x) ==> !tf(x)
    ensures Filter(tf, StableSort.Sort(ByName(nameLe), Filter(group, channels))) == []
  {
    var g := Filter(group, channels);
    var l := StableSort.Sort(ByName(nameLe), g);
    StableSort.SortPermutes(ByName(nameLe), g);
    FilterContents(tf, l);
    FilterContents(group, channels);
    forall x | x in l ensures x in g {
      assert x in multiset(l);
    }
  }

  /** The favourites-first order is the concatenation of the name-sorted
      favourites and the name-sorted others. */
  lemma SortIsFavoritesThenOthers(channels: seq<Channel>, favoriteIds: seq<string>,
                                  nameLe: (string, string) -> bool)
    requires StableSort.TotalPreorder(nameLe)
    ensures SortChannelsWithFavorites(channels, favoriteIds, nameLe)
         == StableSort.Sort(ByName(nameLe), Filter(IsFavoriteChannel(favoriteIds), channels))
          + StableSort.Sort(ByName(nameLe), Filter(IsOtherChannel(favoriteIds), channels))
  {
    var ff := FavoritesFirst(favoriteIds, nameLe);
    var l := StableSort.Sort(ByName(nameLe), Filter(IsFavoriteChannel(favoriteIds), channels));
    var r := StableSort.Sort(ByName(nameLe), Filter(IsOtherChannel(favoriteIds), channels));
    var lhs := StableSort.Sort(ff, channels);
    FavoritesFirstIsPreorder(favoriteIds, nameLe);
    StableSort.SortSorted(ff, channels);
    PartsSorted(channels, favoriteIds, nameLe);
    forall y ensures Filter(StableSort.TiedWith(ff, y), lhs) == Filter(StableSort.TiedWith(ff, y), l + r) {
      PartsTied(channels, favoriteIds, nameLe, y);
    }
    StableSort.SortedUnique(ff, lhs, l + r);
  }

  /** Each tie class of the favourites-first sort is that of the two
      name-sorted groups put together. */
  lemma PartsTied(channels: seq<Channel>, favoriteIds: seq<string>,
                  nameLe: (string, string) -> bool, y: Channel)
    requires StableSort.TotalPreorder(nameLe)
    ensures var tf := StableSort.TiedWith(FavoritesFirst(favoriteIds, nameLe), y);
      Filter(tf, StableSort.Sort(FavoritesFirst(favoriteIds, nameLe), channels))
      == Filter(tf, StableSort.Sort(ByName(nameLe), Filter(IsFavoriteChannel(favoriteIds), channels))
                  + StableSort.Sort(ByName(nameLe), Filter(IsOtherChannel(favoriteIds), channels)))
  {
    var ff := FavoritesFirst(favoriteIds, nameLe);
    var fav := IsFavoriteChannel(favoriteIds);
    var oth := IsOtherChannel(favoriteIds);
    var l := StableSort.Sort(ByName(nameLe), Filter(fav, channels));
    var r := StableSort.Sort(ByName(nameLe), Filter(oth, channels));
    var tf := StableSort.TiedWith(ff, y);
    FavoritesFirstIsPreorder(favoriteIds, nameLe);
    StableSort.SortStable(ff, channels, y);
    FilterConcat(tf, l, r);
    TiedSplit(favoriteIds, nameLe, y);
    if y.id in favoriteIds {
      GroupTies(channels, nameLe, tf, fav, y);
      GroupNoTies(channels, nameLe, tf, oth);
    } else {
      GroupNoTies(channels, nameLe, tf, fav);
      GroupTies(channels, nameLe, tf, oth, y);
    }
  }

  /** The channels tied with `y` under the favourites-first order are those
      of `y`'s group tied with it by name. */
  lemma TiedSplit(favoriteIds: seq<string>, nameLe: (string, string) -> bool, y: Channel)
    ensures var tf := StableSort.TiedWith(FavoritesFirst(favoriteIds, nameLe), y);
      var tb := StableSort.TiedWith(ByName(nameLe), y);
      && (y.id in favoriteIds ==>
          && (forall x :: tf(x) == (tb(x) && IsFavoriteChannel(favoriteIds)(x)))
          && (forall x :: IsOtherChannel(favoriteIds)(x) ==> !tf(x)))
      && (y.id !in favoriteIds ==>
          && (forall x :: tf(x) == (tb(x) && IsOtherChannel(favoriteIds)(x)))
          && (forall x :: IsFavoriteChannel(favoriteIds)(x) ==> !tf(x)))
  {
  }

  /** A name-sorted group of channels with one favourite status is sorted
      favourites-first too. */
  lemma GroupSorted(channels: seq<Channel>, favoriteIds: seq<string>, nameLe: (string, string) -> bool,
                    group: Channel -> bool, isFavorite: bool)
    requires StableSort.TotalPreorder(nameLe)
    requires forall x :: group(x) ==> (x.id in favoriteIds <==> isFavorite)
    ensures var l := StableSort.Sort(ByName(nameLe), Filter(group, channels));
      && StableSort.Sorted(FavoritesFirst(favoriteIds, nameLe), l)
      && forall i | 0 <= i < |l| :: l[i].id in favoriteIds <==> isFavorite
  {
    var bn := ByName(nameLe);
    var l := StableSort.Sort(bn, Filter(group, channels));
    ByNameIsPreorder(nameLe);
    StableSort.SortSorted(bn, Filter(group, channels));
    GroupMembers(channels, bn, group, l);
    forall i | 0 <= i < |l| ensures l[i].id in favoriteIds <==> isFavorite {
      assert group(l[i]);
    }
    SameStatusSorted(l, favoriteIds, nameLe, isFavorite);
  }

  /** Sorting a group keeps only members of the group. */
  lemma GroupMembers(channels: seq<Channel>, le: (Channel, Channel) -> bool, group: Channel -> bool,
                     l: seq<Channel>)
    requires l == StableSort.Sort(le, Filter(group, channels))
    ensures forall i | 0 <= i < |l| :: group(l[i])
  {
    var g := Filter(group, channels);
    StableSort.SortPermutes(le, g);
    forall i | 0 <= i < |l| ensures group(l[i]) {
      assert l[i] in multiset(l);
      assert l[i] in g;
    }
  }

  /** Name-sorted channels of one favourite status are favourites-first sorted. */
  lemma SameStatusSorted(l: seq<Channel>, favoriteIds: seq<string>, nameLe: (string, string) -> bool,
                         isFavorite: bool)
    requires StableSort.Sorted(ByName(nameLe), l)
    requires forall i | 0 <= i < |l| :: l[i].id in favoriteIds <==> isFavorite
    ensures StableSort.Sorted(FavoritesFirst(favoriteIds, nameLe), l)
  {
    var ff := FavoritesFirst(favoriteIds, nameLe);
    forall i, j | 0 <= i < j < |l| ensures ff(l[i], l[j]) {
      assert ByName(nameLe)(l[i], l[j]);
    }
  }

  /** The concatenation of the two name-sorted groups is favourites-first sorted. */
  lemma PartsSorted(channels: seq<Channel>, favoriteIds: seq<string>, nameLe: (string, string) -> bool)
    requires StableSort.TotalPreorder(nameLe)
    ensures StableSort.Sorted(FavoritesFirst(favoriteIds, nameLe),
              StableSort.Sort(ByName(nameLe), Filter(IsFavoriteChannel(favoriteIds), channels))
            + StableSort.Sort(ByName(nameLe), Filter(IsOtherChannel(favoriteIds), channels)))
  {
    var ff := FavoritesFirst(favoriteIds, nameLe);
    var l := StableSort.Sort(ByName(nameLe), Filter(IsFavoriteChannel(favoriteIds), channels));
    var r := StableSort.Sort(ByName(nameLe), Filter(IsOtherChannel(favoriteIds), channels));
    GroupSorted(channels, favoriteIds, nameLe, IsFavoriteChannel(favoriteIds), true);
    GroupSorted(channels, favoriteIds, nameLe, IsOtherChannel(favoriteIds), false);
    StableSort.ConcatSorted(ff, l, r);
  }

  // ---------------------------------------------------------------------
  // Persistence

  /** The contents of the key-value store behind the `Storage` interface. */
  type Store = map<string, string>

  /** `JSON.stringify` and `JSON.parse` on id lists; `parse` yields `None`
      where `JSON.parse` throws. */
  datatype JsonCodec = JsonCodec(stringify: seq<string> -> string, parse: string -> Option<seq<string>>)

  /** `storage.getItem(key)` */
  function GetItem(store: Store, key: string): Option<string> {
    if key in store then Some(store[key]) else None
  }

  /** `loadFavoriteIds`: the parsed list under the favourites key, and the
      empty list whenever reading fails, nothing (or "") is stored, or the
      stored text does not parse. `readOk` is false when `getItem` throws. */
  function LoadFavoriteIds(store: Store, readOk: bool, codec: JsonCodec): (ids: seq<string>)
    ensures ids != [] ==>
      && readOk
      && FavoritesKey in store
      && store[FavoritesKey] != ""
      && codec.parse(store[FavoritesKey]) == Some(ids)
    ensures readOk && FavoritesKey in store && store[FavoritesKey] != ""
            && codec.parse(store[FavoritesKey]).Some? ==>
      ids == codec.parse(store[FavoritesKey]).value
  {
    if !readOk then []
    else match GetItem(store, FavoritesKey)
      case None => []
      case Some(data) =>
        if data == "" then []
        else match codec.parse(data)
          case None => []
          case Some(parsed) => parsed
  }

  /** `saveFavoriteIds`: writes the serialised list under the favourites key
      and touches nothing else; a failed write (`writeOk` false) is
      swallowed and leaves the store as it was. */
  function SaveFavoriteIds(store: Store, writeOk: bool, ids: seq<string>, codec: JsonCodec): (after: Store)
    ensures writeOk ==> FavoritesKey in after && after[FavoritesKey] == codec.stringify(ids)
    ensures !writeOk ==> after == store
    ensures forall k | k != FavoritesKey :: (k in after <==> k in store)
    ensures forall k | k != FavoritesKey && k in store :: after[k] == store[k]
  {
    if writeOk then store[FavoritesKey := codec.stringify(ids)] else store
  }

  /** Save then load returns the saved list, whatever the store held before. */
  lemma SaveThenLoad(store: Store, ids: seq<string>, codec: JsonCodec)
    requires codec.parse(codec.stringify(ids)) == Some(ids)
    requires codec.stringify(ids) != ""
    ensures LoadFavoriteIds(SaveFavoriteIds(store, true, ids, codec), true, codec) == ids
  {
  }

  /** A failed save leaves the previously saved list readable. */
  lemma FailedSaveKeepsPrevious(store: Store, ids: seq<string>, codec: JsonCodec, readOk: bool)
    ensures LoadFavoriteIds(SaveFavoriteIds(store, false, ids, codec), readOk, codec)
         == LoadFavoriteIds(store, readOk, codec)
  {
  }
}

=== FILE: js.dfy ===
/**
 JavaScript runtime notions the catalog code relies on: optional values
 (`undefined`/`null`), JSON values, bytes, and the few string methods the
 code calls (`startsWith`, `includes`, `toLowerCase`, `split('?')[0]`).
 */
module Js {

  /** A value that may be absent (`undefined` or `null` in the source). */
  datatype Option<+T> = None | Some(value: T)

  /** A parsed JSON value. Numbers are kept as integers: no decision in the
      modelled code looks at a number's value. */
  datatype Json =
    | JNull
    | JBool(b: bool)
    | JNumber(n: int)
    | JString(s: string)
    | JArray(items: seq<Json>)
    | JObject(fields: map<string, Json>)

  /** One octet, as in a Node `Buffer`. */
  type Byte = b: int | 0 <= b < 256

  /** `s.startsWith(prefix)` */
  predicate StartsWith(s: string, prefix: string) {
    |prefix| <= |s| && s[..|prefix|] == prefix
  }

  /** `term` occurs in `s` starting at offset `k`. */
  predicate OccursAt(s: string, term: string, k: int) {
    0 <= k <= |s| - |term| && s[k..k + |term|] == term
  }

  /** `s.includes(term)`: `term` occurs in `s` at some offset. */
  predicate Includes(s: string, term: string) {
    exists k | 0 <= k <= |s| - |term| :: OccursAt(s, term, k)
  }

  /** Lower-casing of one character; only the ASCII letters are mapped. */
  function LowerChar(c: char): char {
    if 'A' <= c <= 'Z' then (c as int + 32) as char else c
  }

  /** `s.toLowerCase()`, restricted to ASCII letters. */
  function ToLower(s: string): (r: string)
    ensures |r| == |s|
    ensures forall i | 0 <= i < |s| :: r[i] == LowerChar(s[i])
  {
    seq(|s|, i requires 0 <= i < |s| => LowerChar(s[i]))
  }

  /** `s.split('?')[0]`: the part of `s` before its first `'?'`. */
  function BeforeQuestionMark(s: string): (r: string)
    ensures StartsWith(s, r)
    ensures '?' !in r
    ensures |r| < |s| ==> s[|r|] == '?'
    decreases |s|
  {
    if s == [] then ""
    else if s[0] == '?' then ""
    else [s[0]] + BeforeQuestionMark(s[1..])
  }

  /** A string without '?' is kept whole. */
  lemma BeforeQuestionMarkWhole(s: string)
    requires '?' !in s
    ensures BeforeQuestionMark(s) == s
  {
  }
}

=== FILE: keyboard.dfy ===
/**
 The remote-control handler of the channel grid: arrow keys move the focus
 over a grid of `columns` columns, Enter selects, `f`/`F` toggles the
 favourite of the focused card.
 */
module KeyboardNavigation {

  /** The callback a key press leads to, if any. */
  datatype Action =
    | NoAction
    | FocusChange(index: int)
    | Select(index: int)
    | Favorite(index: int)

  /** What one `keydown` does: whether the browser default is prevented,
      and which callback is invoked. */
  datatype KeyOutcome = KeyOutcome(prevented: bool, action: Action)

  const ArrowUp := "ArrowUp"
  const ArrowDown := "ArrowDown"
  const ArrowLeft := "ArrowLeft"
  const ArrowRight := "ArrowRight"
  const Enter := "Enter"

  /** The keys the handler reacts to. */
  predicate Handled(key: string) {
    key == ArrowUp || key == ArrowDown || key == ArrowLeft || key == ArrowRight
    || key == Enter || key == "f" || key == "F"
  }

  /** JavaScript's `%`, whose result takes the sign of the dividend. */
  function TruncRem(a: int, b: int): (r: int)
    requires b >= 1
    ensures a >= 0 ==> r == a % b
    ensures -b < r < b
  {
    if a >= 0 then a % b else -((-a) % b)
  }

  /** `Math.ceil(a / b)` for a non-negative `a` and a positive `b`. */
  function CeilDiv(a: nat, b: int): int
    requires b >= 1
  {
    (a + b - 1) / b
  }

  function Min(a: int, b: int): int {
    if a <= b then a else b
  }

  /** Quotient and remainder of a card index, and the row starts next to
      its own. */
  lemma RowParts(f: int, c: int)
    requires c >= 1
    ensures f == (f / c) * c + f % c
    ensures 0 <= f % c < c
    ensures (f / c + 1) * c == (f / c) * c + c
    ensures (f / c - 1) * c == (f / c) * c - c
  {
  }

  /** The `ArrowUp` branch: one row up, in the same column. */
  function MoveUp(itemCount: nat, columns: int, focusedIndex: int): (r: Action)
    requires itemCount > 0 && columns >= 1
    ensures 0 <= focusedIndex < itemCount ==>
      r == if focusedIndex >= columns then FocusChange(focusedIndex - columns) else NoAction
    ensures r.FocusChange? || r.NoAction?
  {
    var currentRow := focusedIndex / columns;
    var currentCol := TruncRem(focusedIndex, columns);
    RowParts(focusedIndex, columns);
    if currentRow > 0 then
      var newIndex := (currentRow - 1) * columns + currentCol;
      FocusChange(Min(newIndex, itemCount - 1))
    else NoAction
  }

  /** The `ArrowDown` branch: one row down, in the same column, clamped to
      the last card, when a next row exists. */
  function MoveDown(itemCount: nat, columns: int, focusedIndex: int): (r: Action)
    requires itemCount > 0 && columns >= 1
    ensures 0 <= focusedIndex < itemCount ==>
      r == if (focusedIndex / columns + 1) * columns < itemCount
           then FocusChange(Min(focusedIndex + columns, itemCount - 1)) else NoAction
    ensures 0 <= focusedIndex < itemCount && r.FocusChange? ==> focusedIndex < r.index < itemCount
    ensures r.FocusChange? || r.NoAction?
  {
    var rows := CeilDiv(itemCount, columns);
    var currentRow := focusedIndex / columns;
    var currentCol := TruncRem(focusedIndex, columns);
    RowParts(focusedIndex, columns);
    DownGuard(itemCount, columns, focusedIndex);
    if currentRow < rows - 1 then
      var newIndex := (currentRow + 1) * columns + currentCol;
      FocusChange(Min(newIndex, itemCount - 1))
    else NoAction
  }

  /** `handleKeyDown` for a grid of `itemCount` cards in `columns` columns,
      `hasFavoriteHandler` telling whether `onFavorite` was supplied. */
  function HandleKeyDown(itemCount: nat, columns: int, focusedIndex: int, key: string,
                         hasFavoriteHandler: bool): (r: KeyOutcome)
    requires columns >= 1
    ensures r.prevented <==> itemCount > 0 && Handled(key)
    ensures r.action.Select? <==> itemCount > 0 && key == Enter
    ensures r.action.Favorite? <==> itemCount > 0 && (key == "f" || key == "F") && hasFavoriteHandler
    ensures (r.action.Select? || r.action.Favorite?) ==> r.action.index == focusedIndex
    ensures r.action.FocusChange? ==>
      itemCount > 0 && (key == ArrowUp || key == ArrowDown || key == ArrowLeft || key == ArrowRight)
    ensures 0 <= focusedIndex < itemCount && r.action.FocusChange? ==>
      0 <= r.action.index < itemCount && r.action.index != focusedIndex
    ensures itemCount > 0 && key == ArrowUp ==> r.action == MoveUp(itemCount, columns, focusedIndex)
    ensures itemCount > 0 && key == ArrowDown ==> r.action == MoveDown(itemCount, columns, focusedIndex)
    ensures key == ArrowLeft ==>
      r.action == if itemCount > 0 && focusedIndex > 0 then FocusChange(focusedIndex - 1) else NoAction
    ensures key == ArrowRight ==>
      r.action == if itemCount > 0 && focusedIndex < itemCount - 1 then FocusChange(focusedIndex + 1) else NoAction
  {
    if itemCount == 0 then KeyOutcome(false, NoAction)
    else if key == ArrowUp then KeyOutcome(true, MoveUp(itemCount, columns, focusedIndex))
    else if key == ArrowDown then KeyOutcome(true, MoveDown(itemCount, columns, focusedIndex))
    else if key == ArrowLeft then
      if focusedIndex > 0 then KeyOutcome(true, FocusChange(focusedIndex - 1))
      else KeyOutcome(true, NoAction)
    else if key == ArrowRight then
      if focusedIndex < itemCount - 1 then KeyOutcome(true, FocusChange(focusedIndex + 1))
      else KeyOutcome(true, NoAction)
    else if key == Enter then KeyOutcome(true, Select(focusedIndex))
    else if key == "f" || key == "F" then
      KeyOutcome(true, if hasFavoriteHandler then Favorite(focusedIndex) else NoAction)
    else KeyOutcome(false, NoAction)
  }

  /** A row index lies before the last of the `CeilDiv(n, c)` rows exactly
      when the row after it starts at an existing card. */
  lemma BeforeLastRow(k: nat, n: nat, c: int)
    requires c >= 1
    ensures k + 1 < CeilDiv(n, c) <==> (k + 1) * c < n
  {
    var q := (n + c - 1) / c;
    var r := (n + c - 1) % c;
    assert n + c - 1 == q * c + r;
    if k + 1 < q {
      MulLe(k + 2, q, c);
    }
    if (k + 1) * c < n {
      assert (k + 2) * c == (k + 1) * c + c;
      MulLtCancel(k + 2, q + 1, c);
    }
  }

  /** The guard of the downward move, for a card in or after the first row. */
  lemma DownGuard(n: nat, c: int, f: int)
    requires c >= 1
    ensures f >= 0 ==> (f / c < CeilDiv(n, c) - 1 <==> (f / c + 1) * c < n)
  {
    if f >= 0 {
      BeforeLastRow(f / c, n, c);
    }
  }

  lemma MulLe(a: int, b: int, c: nat)
    requires a <= b
    ensures a * c <= b * c
  {
  }

  lemma MulLtCancel(a: int, b: int, c: int)
    requires c >= 1
    requires a * c < b * c
    ensures a < b
  {
    if a >= b {
      MulLe(b, a, c);
    }
  }

  /** Up then down returns to the starting card. */
  lemma UpThenDown(n: nat, c: int, f: int, hasFavorite: bool)
    requires c >= 1
    requires c <= f < n
    ensures HandleKeyDown(n, c, f, ArrowUp, hasFavorite).action == FocusChange(f - c)
    ensures HandleKeyDown(n, c, f - c, ArrowDown, hasFavorite).action == FocusChange(f)
  {
    RowParts(f - c, c);
  }

  /** Down then up returns to the starting card when the card below exists. */
  lemma DownThenUp(n: nat, c: int, f: int, hasFavorite: bool)
    requires c >= 1
    requires 0 <= f && f + c < n
    ensures HandleKeyDown(n, c, f, ArrowDown, hasFavorite).action == FocusChange(f + c)
    ensures HandleKeyDown(n, c, f + c, ArrowUp, hasFavorite).action == FocusChange(f)
  {
    RowParts(f, c);
  }

  /** Left then right returns to the starting card. */
  lemma LeftThenRight(n: nat, c: int, f: int, hasFavorite: bool)
    requires c >= 1
    requires 0 < f < n
    ensures HandleKeyDown(n, c, f, ArrowLeft, hasFavorite).action == FocusChange(f - 1)
    ensures HandleKeyDown(n, c, f - 1, ArrowRight, hasFavorite).action == FocusChange(f)
  {
  }

  /** Three concrete presses: on a 3-column grid of 10 cards, down from
      card 1 lands on card 4, and down from card 8 is clamped to the last
      card, 9; on a 5-card grid, right from the last card does nothing,
      though the default is still prevented. */
  lemma ConcretePresses()
    ensures HandleKeyDown(10, 3, 1, ArrowDown, false) == KeyOutcome(true, FocusChange(4))
    ensures HandleKeyDown(5, 3, 4, ArrowRight, false) == KeyOutcome(true, NoAction)
    ensures HandleKeyDown(10, 3, 8, ArrowDown, false) == KeyOutcome(true, FocusChange(9))
  {
  }
}

=== FILE: node_path.dfy ===
/**
 `path.extname` of Node's POSIX path module: the extension of the last
 path component, from its last '.' to its end, once trailing '/' are
 removed. A component without a '.', one whose only '.' is its first
 character (".profile"), and the component ".." have no extension.
 */
module NodePath {
  import opened Js

  /** The path with its trailing '/' characters removed. */
  function StripTrailingSlashes(p: string): (r: string)
    decreases |p|
  {
    if p == [] || p[|p| - 1] != '/' then p
    else StripTrailingSlashes(p[..|p| - 1])
  }

  /** `StripTrailingSlashes` keeps a prefix, ends in something other than
      '/', and drops only '/' characters. */
  lemma {:induction false} StripTrailingSlashesSpec(p: string)
    ensures var r := StripTrailingSlashes(p);
      && |r| <= |p| && r == p[..|r|]
      && (r == [] || r[|r| - 1] != '/')
      && forall i | |r| <= i < |p| :: p[i] == '/'
    decreases |p|
  {
    if p != [] && p[|p| - 1] == '/' {
      var q := p[..|p| - 1];
      StripTrailingSlashesSpec(q);
      var r := StripTrailingSlashes(q);
      assert r == p[..|r|];
    }
  }

  /** The part of `p` after its last '/' (all of `p` when it has none). */
  function AfterLastSlash(p: string): (r: string)
    decreases |p|
  {
    if p == [] then []
    else if p[|p| - 1] == '/' then []
    else AfterLastSlash(p[..|p| - 1]) + [p[|p| - 1]]
  }

  /** `AfterLastSlash` is a suffix free of '/', preceded by a '/' when it is
      not the whole path. */
  lemma {:induction false} AfterLastSlashSpec(p: string)
    ensures var r := AfterLastSlash(p);
      && |r| <= |p| && r == p[|p| - |r|..]
      && '/' !in r
      && (|r| < |p| ==> p[|p| - |r| - 1] == '/')
    decreases |p|
  {
    if p != [] && p[|p| - 1] != '/' {
      var q := p[..|p| - 1];
      AfterLastSlashSpec(q);
      var a := AfterLastSlash(q);
      assert AfterLastSlash(p) == a + [p[|p| - 1]];
      assert p[|p| - |a| - 1..] == q[|q| - |a|..] + [p[|p| - 1]];
    }
  }

  /** `path.basename(p)`: the last component, trailing '/' ignored. */
  function BaseName(p: string): (r: string)
  {
    AfterLastSlash(StripTrailingSlashes(p))
  }

  /** The index of the last '.' in `s`, if any. */
  function LastDot(s: string): (r: Option<nat>)
    ensures r.Some? ==> r.value < |s|
    decreases |s|
  {
    if s == [] then None
    else if s[|s| - 1] == '.' then Some(|s| - 1)
    else LastDot(s[..|s| - 1])
  }

  /** `LastDot` finds a '.' exactly when there is one, and nothing after
      it is a '.'. */
  lemma {:induction false} LastDotSpec(s: string)
    ensures LastDot(s).None? <==> '.' !in s
    ensures LastDot(s).Some? ==>
      var k := LastDot(s).value; k < |s| && s[k] == '.' && '.' !in s[k + 1..]
    decreases |s|
  {
    if s != [] && s[|s| - 1] != '.' {
      var q := s[..|s| - 1];
      LastDotSpec(q);
      assert s == q + [s[|s| - 1]];
      if LastDot(q).Some? {
        var k := LastDot(q).value;
        assert s[k + 1..] == q[k + 1..] + [s[|s| - 1]];
      }
    }
  }

  /** `path.extname(p)` */
  function ExtName(p: string): (r: string)
  {
    var base := BaseName(p);
    match LastDot(base)
    case None => ""
    case Some(k) =>
      if k == 0 || base == ".." then ""
      else base[k..]
  }

  /** An extension is empty or a '.' followed by neither '.' nor '/', and
      it ends the base name. */
  lemma ExtNameShape(p: string)
    ensures var r := ExtName(p);
      && (r == [] || (r[0] == '.' && '.' !in r[1..]))
      && '/' !in r
      && EndsWith(BaseName(p), r)
  {
    var base := BaseName(p);
    BaseNameNoSlash(p);
    if LastDot(base).Some? && LastDot(base).value != 0 && base != ".." {
      var k := LastDot(base).value;
      assert ExtName(p) == base[k..];
      ExtNameTail(base, k);
    } else {
      assert ExtName(p) == "";
    }
  }

  lemma BaseNameNoSlash(p: string)
    ensures '/' !in BaseName(p)
  {
    AfterLastSlashSpec(StripTrailingSlashes(p));
  }

  /** The tail of a base name from its last dot. */
  lemma ExtNameTail(base: string, k: nat)
    requires LastDot(base) == Some(k)
    requires '/' !in base
    ensures base[k..][0] == '.' && '.' !in base[k..][1..]
    ensures '/' !in base[k..]
    ensures EndsWith(base, base[k..])
  {
    LastDotSpec(base);
    assert base[k..][1..] == base[k + 1..];
  }

  /** A character the path lacks is not in its extension either. */
  lemma ExtNameLacks(p: string, x: char)
    requires x !in p
    ensures x !in ExtName(p)
  {
    var s := StripTrailingSlashes(p);
    StripTrailingSlashesSpec(p);
    SliceLacks(p, 0, |s|, x);
    var base := AfterLastSlash(s);
    AfterLastSlashSpec(s);
    SliceLacks(s, |s| - |base|, |s|, x);
    if LastDot(base).Some? {
      SliceLacks(base, LastDot(base).value, |base|, x);
    }
  }

  lemma SliceLacks(s: string, i: nat, j: nat, x: char)
    requires i <= j <= |s| && x !in s
    ensures x !in s[i..j]
  {
  }

  /** `r` is a suffix of `s`. */
  predicate EndsWith(s: string, r: string) {
    |r| <= |s| && s[|s| - |r|..] == r
  }

  /** A file name `stem + ext`, the stem not starting with '.' and holding
      no '.', and the extension a '.' followed by neither '.' nor '/',
      after any directory: `extname` gives back the extension. */
  lemma {:induction false} ExtNameOfFile(dir: string, stem: string, ext: string)
    requires stem != [] && '.' !in stem && '/' !in stem
    requires |ext| >= 1 && ext[0] == '.' && '.' !in ext[1..] && '/' !in ext
    requires dir == [] || dir[|dir| - 1] == '/'
    ensures ExtName(dir + stem + ext) == ext
  {
    var name := stem + ext;
    assert dir + stem + ext == dir + name;
    BaseNameOf(dir, name);
    LastDotOf(stem, ext);
    assert name[0] != ".."[0];
    ExtNameOfBase(dir + name, name, |stem|);
    assert name[|stem|..] == ext;
  }

  /** `extname` from a base name and the position of its last dot. */
  lemma ExtNameOfBase(p: string, base: string, k: nat)
    requires BaseName(p) == base && LastDot(base) == Some(k)
    requires k != 0 && base != ".."
    ensures ExtName(p) == base[k..]
  {
  }

  /** A dot file after any directory has no extension. */
  lemma {:induction false} ExtNameOfDotFile(dir: string, rest: string)
    requires '.' !in rest && '/' !in rest
    requires dir == [] || dir[|dir| - 1] == '/'
    ensures ExtName(dir + "." + rest) == ""
  {
    var name := "." + rest;
    assert dir + "." + rest == dir + name;
    BaseNameOf(dir, name);
    LastDotOfDotFile(rest);
  }

  lemma LastDotOfDotFile(rest: string)
    requires '.' !in rest
    ensures LastDot("." + rest) == Some(0)
  {
    var s := "." + rest;
    LastDotSpec(s);
    assert s[1..] == rest;
    assert s[0] == '.';
  }

  /** The base name of a name after a directory prefix ending in '/'. */
  lemma BaseNameOf(dir: string, name: string)
    requires dir == [] || dir[|dir| - 1] == '/'
    requires name != [] && '/' !in name
    ensures BaseName(dir + name) == name
  {
    var p := dir + name;
    assert p[|p| - 1] == name[|name| - 1];
    assert StripTrailingSlashes(p) == p;
    AfterLastSlashAppend(dir, name);
  }

  /** The component after a directory prefix ending in '/'. */
  lemma AfterLastSlashAppend(dir: string, name: string)
    requires dir == [] || dir[|dir| - 1] == '/'
    requires '/' !in name
    ensures AfterLastSlash(dir + name) == name
  {
    var r := AfterLastSlash(dir + name);
    var p := dir + name;
    AfterLastSlashSpec(p);
    assert p[|p| - |name|..] == name;
  }

  lemma LastDotOf(stem: string, ext: string)
    requires stem != [] && '.' !in stem
    requires |ext| >= 1 && ext[0] == '.' && '.' !in ext[1..]
    ensures LastDot(stem + ext) == Some(|stem|)
  {
    var s := stem + ext;
    LastDotSpec(s);
    assert s[|stem|] == '.';
  }

  /** The parent directory has no extension. */
  lemma ExampleParent()
    ensures ExtName("..") == ""
  {
    assert StripTrailingSlashes("..") == "..";
    assert AfterLastSlash(".") == ".";
    assert AfterLastSlash("..") == "..";
  }

  /** A dot in a directory name does not count. */
  lemma ExampleDottedDirectory()
    ensures ExtName("a.b/c") == ""
  {
    assert AfterLastSlash("a.b/c") == "c";
    assert LastDot("c") == None;
  }
}

=== FILE: seqs.dfy ===
/**
 Order-preserving filtering (`Array.prototype.filter`) and the subsequence
 relation it establishes. Several catalog operations (favourite removal,
 delete, search) are filters; their contracts are stated through these.
 */
module Seqs {

  /** `sub` arises from `s` by deleting elements, the rest keeping their order. */
  ghost predicate IsSubsequence<T>(sub: seq<T>, s: seq<T>)
    decreases |s|
  {
    if sub == [] then true
    else if s == [] then false
    else (sub[0] == s[0] && IsSubsequence(sub[1..], s[1..])) || IsSubsequence(sub, s[1..])
  }

  /** `s.filter(p)` */
  function Filter<T(==)>(p: T -> bool, s: seq<T>): (r: seq<T>)
    ensures |r| <= |s|
    ensures forall i | 0 <= i < |r| :: p(r[i])
    decreases |s|
  {
    if s == [] then []
    else (if p(s[0]) then [s[0]] else []) + Filter(p, s[1..])
  }

  /** Filtering a sequence with a given first element. */
  lemma FilterCons<T(!new)>(p: T -> bool, x: T, s: seq<T>)
    ensures Filter(p, [x] + s) == (if p(x) then [x] else []) + Filter(p, s)
  {
    assert ([x] + s)[1..] == s;
  }

  /** The filter keeps exactly the elements satisfying `p`, with their
      multiplicities, in their original order. */
  lemma {:induction false} FilterContents<T(!new)>(p: T -> bool, s: seq<T>)
    ensures forall x :: x in Filter(p, s) <==> x in s && p(x)
    ensures forall x :: multiset(Filter(p, s))[x] == if p(x) then multiset(s)[x] else 0
    ensures IsSubsequence(Filter(p, s), s)
    decreases |s|
  {
    if s != [] {
      FilterContents(p, s[1..]);
      var rest := Filter(p, s[1..]);
      assert s == [s[0]] + s[1..];
      if p(s[0]) {
        assert Filter(p, s) == [s[0]] + rest;
        assert ([s[0]] + rest)[1..] == rest;
      } else {
        assert Filter(p, s) == rest;
      }
    }
  }

  /** Filtering distributes over concatenation. */
  lemma {:induction false} FilterConcat<T(!new)>(p: T -> bool, a: seq<T>, b: seq<T>)
    ensures Filter(p, a + b) == Filter(p, a) + Filter(p, b)
    decreases |a|
  {
    if a == [] {
      assert a + b == b;
    } else {
      assert (a + b)[1..] == a[1..] + b;
      FilterConcat(p, a[1..], b);
    }
  }

  /** A filter that every element passes keeps the sequence as it is. */
  lemma {:induction false} FilterKeepsAll<T(!new)>(p: T -> bool, s: seq<T>)
    requires forall i | 0 <= i < |s| :: p(s[i])
    ensures Filter(p, s) == s
    decreases |s|
  {
    if s != [] {
      FilterKeepsAll(p, s[1..]);
    }
  }

  /** Two predicates that agree on the elements of `s` filter it alike. */
  lemma {:induction false} FilterAgree<T(!new)>(p: T -> bool, q: T -> bool, s: seq<T>)
    requires forall i | 0 <= i < |s| :: p(s[i]) == q(s[i])
    ensures Filter(p, s) == Filter(q, s)
    decreases |s|
  {
    if s != [] {
      FilterAgree(p, q, s[1..]);
    }
  }

  /** Filtering twice is filtering once by the conjunction. */
  lemma {:induction false} FilterFilter<T(!new)>(p: T -> bool, q: T -> bool, pq: T -> bool, s: seq<T>)
    requires forall x :: pq(x) == (p(x) && q(x))
    ensures Filter(p, Filter(q, s)) == Filter(pq, s)
    decreases |s|
  {
    if s != [] {
      FilterFilter(p, q, pq, s[1..]);
      var rest := Filter(q, s[1..]);
      if q(s[0]) {
        assert Filter(q, s) == [s[0]] + rest;
        assert ([s[0]] + rest)[1..] == rest;
      } else {
        assert Filter(q, s) == rest;
      }
    }
  }
}

=== FILE: stable_sort.dfy ===
/**
 `Array.prototype.sort` with a comparator, which ECMA-262 has required to be
 stable since its 2019 edition. A comparator `cmp` is represented by the
 relation `le(a, b)` that holds when `cmp(a, b) <= 0`; the sort is modelled
 as a stable insertion sort over that relation.
 */
module StableSort {
  import opened Seqs

  /** `le` is total and transitive (hence reflexive): a consistent comparator. */
  ghost predicate TotalPreorder<T(!new)>(le: (T, T) -> bool) {
    && (forall a, b :: le(a, b) || le(b, a))
    && (forall a, b, c :: le(a, b) && le(b, c) ==> le(a, c))
  }

  ghost predicate Sorted<T>(le: (T, T) -> bool, s: seq<T>) {
    forall i, j | 0 <= i < j < |s| :: le(s[i], s[j])
  }

  /** The elements the comparator cannot tell apart from `x`. */
  function TiedWith<T>(le: (T, T) -> bool, x: T): T -> bool {
    y => le(x, y) && le(y, x)
  }

  /** Inserts `x` before the first element it may precede. */
  function Insert<T(==)>(le: (T, T) -> bool, x: T, t: seq<T>): (r: seq<T>)
    ensures |r| == |t| + 1
    decreases |t|
  {
    if t == [] then [x]
    else if le(x, t[0]) then [x] + t
    else [t[0]] + Insert(le, x, t[1..])
  }

  /** The stable sort of `s` under `le`. */
  function Sort<T(==)>(le: (T, T) -> bool, s: seq<T>): (r: seq<T>)
    ensures |r| == |s|
    decreases |s|
  {
    if s == [] then []
    else Insert(le, s[0], Sort(le, s[1..]))
  }

  lemma {:induction false} InsertPermutes<T>(le: (T, T) -> bool, x: T, t: seq<T>)
    ensures multiset(Insert(le, x, t)) == multiset(t) + multiset{x}
    decreases |t|
  {
    if t != [] && !le(x, t[0]) {
      InsertPermutes(le, x, t[1..]);
      assert t == [t[0]] + t[1..];
    }
  }

  /** The sort only rearranges its input. */
  lemma {:induction false} SortPermutes<T>(le: (T, T) -> bool, s: seq<T>)
    ensures multiset(Sort(le, s)) == multiset(s)
    decreases |s|
  {
    if s != [] {
      SortPermutes(le, s[1..]);
      InsertPermutes(le, s[0], Sort(le, s[1..]));
      assert s == [s[0]] + s[1..];
    }
  }

  lemma {:induction false} InsertSorted<T(!new)>(le: (T, T) -> bool, x: T, t: seq<T>)
    requires TotalPreorder(le)
    requires Sorted(le, t)
    ensures Sorted(le, Insert(le, x, t))
    decreases |t|
  {
    if t != [] {
      if le(x, t[0]) {
        var r := [x] + t;
        forall i, j | 0 <= i < j < |r| ensures le(r[i], r[j]) {
          if i == 0 && j > 1 {
            assert le(t[0], t[j - 1]);
          }
        }
      } else {
        var rest := Insert(le, x, t[1..]);
        InsertSorted(le, x, t[1..]);
        InsertPermutes(le, x, t[1..]);
        var r := [t[0]] + rest;
        forall k | 0 <= k < |rest| ensures le(t[0], rest[k]) {
          assert rest[k] in multiset(rest);
          if rest[k] != x {
            assert rest[k] in multiset(t[1..]);
            var m :| 0 <= m < |t[1..]| && t[1..][m] == rest[k];
            assert t[m + 1] == rest[k];
          }
        }
        forall i, j | 0 <= i < j < |r| ensures le(r[i], r[j]) {
          if i > 0 {
            assert r[i] == rest[i - 1] && r[j] == rest[j - 1];
          }
        }
      }
    }
  }

  /** Two sorted runs, the first entirely before the second, make a sorted run. */
  lemma ConcatSorted<T>(le: (T, T) -> bool, l: seq<T>, r: seq<T>)
    requires Sorted(le, l) && Sorted(le, r)
    requires forall i, j | 0 <= i < |l| && 0 <= j < |r| :: le(l[i], r[j])
    ensures Sorted(le, l + r)
  {
    var s := l + r;
    forall i, j | 0 <= i < j < |s| ensures le(s[i], s[j]) {
      if j < |l| {
        assert s[i] == l[i] && s[j] == l[j];
      } else if i >= |l| {
        assert s[i] == r[i - |l|] && s[j] == r[j - |l|];
      } else {
        assert s[i] == l[i] && s[j] == r[j - |l|];
      }
    }
  }

  /** The sort orders its result by the comparator. */
  lemma {:induction false} SortSorted<T(!new)>(le: (T, T) -> bool, s: seq<T>)
    requires TotalPreorder(le)
    ensures Sorted(le, Sort(le, s))
    decreases |s|
  {
    if s != [] {
      SortSorted(le, s[1..]);
      InsertSorted(le, s[0], Sort(le, s[1..]));
    }
  }

  /** An element that `x` may not precede is not tied with anything `x` is tied with. */
  lemma TiesExclude<T(!new)>(le: (T, T) -> bool, x: T, z: T, y: T)
    requires TotalPreorder(le)
    requires !le(x, z)
    ensures TiedWith(le, y)(x) ==> !TiedWith(le, y)(z)
  {
  }

  /** `x` lands in front of every element tied with it. */
  lemma {:induction false} InsertTies<T(!new)>(le: (T, T) -> bool, x: T, t: seq<T>, y: T)
    requires TotalPreorder(le)
    ensures Filter(TiedWith(le, y), Insert(le, x, t))
         == (if TiedWith(le, y)(x) then [x] else []) + Filter(TiedWith(le, y), t)
    decreases |t|
  {
    if t == [] {
      assert Insert(le, x, t) == [x];
    } else if le(x, t[0]) {
      assert Insert(le, x, t) == [x] + t;
      FilterConcat(TiedWith(le, y), [x], t);
    } else {
      InsertTies(le, x, t[1..], y);
      TiesExclude(le, x, t[0], y);
      InsertTiesStep(le, TiedWith(le, y), x, t);
    }
  }

  lemma InsertTiesStep<T(!new)>(le: (T, T) -> bool, p: T -> bool, x: T, t: seq<T>)
    requires t != [] && !le(x, t[0])
    requires p(x) ==> !p(t[0])
    requires Filter(p, Insert(le, x, t[1..])) == (if p(x) then [x] else []) + Filter(p, t[1..])
    ensures Filter(p, Insert(le, x, t)) == (if p(x) then [x] else []) + Filter(p, t)
  {
    var rest := Insert(le, x, t[1..]);
    assert Insert(le, x, t) == [t[0]] + rest;
    FilterCons(p, t[0], rest);
    FilterCons(p, t[0], t[1..]);
    assert [t[0]] + t[1..] == t;
    var head: seq<T> := if p(t[0]) then [t[0]] else [];
    if p(x) {
      assert head == [];
      assert Filter(p, Insert(le, x, t)) == Filter(p, rest);
      assert Filter(p, t) == Filter(p, t[1..]);
    } else {
      assert Filter(p, rest) == Filter(p, t[1..]);
    }
  }

  /** Stability: elements the comparator ties keep their input order. */
  lemma {:induction false} SortStable<T(!new)>(le: (T, T) -> bool, s: seq<T>, y: T)
    requires TotalPreorder(le)
    ensures Filter(TiedWith(le, y), Sort(le, s)) == Filter(TiedWith(le, y), s)
    decreases |s|
  {
    if s != [] {
      var p := TiedWith(le, y);
      SortStable(le, s[1..], y);
      InsertTies(le, s[0], Sort(le, s[1..]), y);
      assert s == [s[0]] + s[1..];
      FilterConcat(p, [s[0]], s[1..]);
    }
  }

  /** Two comparators that agree on the elements of `s` sort it alike. */
  lemma {:induction false} SortAgree<T(!new)>(le1: (T, T) -> bool, le2: (T, T) -> bool, s: seq<T>)
    requires forall i, j | 0 <= i < |s| && 0 <= j < |s| :: le1(s[i], s[j]) == le2(s[i], s[j])
    ensures Sort(le1, s) == Sort(le2, s)
    decreases |s|
  {
    if s != [] {
      SortAgree(le1, le2, s[1..]);
      SortPermutes(le1, s[1..]);
      forall z | z in Sort(le1, s[1..]) ensures z in s {
        assert z in multiset(Sort(le1, s[1..]));
        assert z in s[1..];
      }
      InsertAgree(le1, le2, s[0], Sort(le1, s[1..]), s);
    }
  }

  lemma {:induction false} InsertAgree<T(!new)>(le1: (T, T) -> bool, le2: (T, T) -> bool, x: T, t: seq<T>, s: seq<T>)
    requires x in s
    requires forall z | z in t :: z in s
    requires forall i, j | 0 <= i < |s| && 0 <= j < |s| :: le1(s[i], s[j]) == le2(s[i], s[j])
    ensures Insert(le1, x, t) == Insert(le2, x, t)
    decreases |t|
  {
    if t != [] {
      assert t[0] in t;
      var i :| 0 <= i < |s| && s[i] == x;
      var j :| 0 <= j < |s| && s[j] == t[0];
      assert le1(x, t[0]) == le2(x, t[0]);
      InsertAgree(le1, le2, x, t[1..], s);
    }
  }

  /** If the class of `a[0]` reappears in sorted `b`, `b[0]` may precede `a[0]`. */
  lemma HeadPrecedesTied<T(!new)>(le: (T, T) -> bool, a: seq<T>, b: seq<T>)
    requires TotalPreorder(le)
    requires Sorted(le, b)
    requires a != [] && b != []
    requires Filter(TiedWith(le, a[0]), a) == Filter(TiedWith(le, a[0]), b)
    ensures le(b[0], a[0])
  {
    var p := TiedWith(le, a[0]);
    assert Filter(p, a) == [a[0]] + Filter(p, a[1..]);
    FilterContents(p, b);
    var fb := Filter(p, b);
    assert fb[0] in b;
    var k :| 0 <= k < |b| && b[k] == fb[0];
    assert p(b[k]);
    if k > 0 {
      assert le(b[0], b[k]);
    }
  }

  /** Equal heads drop out of equal tie classes. */
  lemma TailsTied<T(!new)>(le: (T, T) -> bool, a: seq<T>, b: seq<T>)
    requires a != [] && b != [] && a[0] == b[0]
    requires forall y :: Filter(TiedWith(le, y), a) == Filter(TiedWith(le, y), b)
    ensures forall y :: Filter(TiedWith(le, y), a[1..]) == Filter(TiedWith(le, y), b[1..])
  {
    forall y ensures Filter(TiedWith(le, y), a[1..]) == Filter(TiedWith(le, y), b[1..]) {
      var p := TiedWith(le, y);
      assert Filter(TiedWith(le, y), a) == Filter(TiedWith(le, y), b);
      var h: seq<T> := if p(a[0]) then [a[0]] else [];
      assert Filter(p, a) == h + Filter(p, a[1..]);
      assert Filter(p, b) == h + Filter(p, b[1..]);
      assert Filter(p, a[1..]) == (h + Filter(p, a[1..]))[|h|..];
      assert Filter(p, b[1..]) == (h + Filter(p, b[1..]))[|h|..];
    }
  }

  /** A sorted sequence is determined by its tie classes: the stable sort
      result is unique. */
  lemma {:induction false} SortedUnique<T(!new)>(le: (T, T) -> bool, a: seq<T>, b: seq<T>)
    requires TotalPreorder(le)
    requires Sorted(le, a) && Sorted(le, b)
    requires forall y :: Filter(TiedWith(le, y), a) == Filter(TiedWith(le, y), b)
    ensures a == b
    decreases |a| + |b|
  {
    if a == [] || b == [] {
      EmptyTieClasses(le, a, b);
    } else {
      SameHead(le, a, b);
      TailsTied(le, a, b);
      SortedTail(le, a);
      SortedTail(le, b);
      SortedUnique(le, a[1..], b[1..]);
      assert a == [a[0]] + a[1..] && b == [b[0]] + b[1..];
    }
  }

  /** An empty sequence shares its tie classes only with itself. */
  lemma EmptyTieClasses<T(!new)>(le: (T, T) -> bool, a: seq<T>, b: seq<T>)
    requires TotalPreorder(le)
    requires a == [] || b == []
    requires forall y :: Filter(TiedWith(le, y), a) == Filter(TiedWith(le, y), b)
    ensures a == b
  {
    if a != [] {
      FilterContents(TiedWith(le, a[0]), a);
    } else if b != [] {
      FilterContents(TiedWith(le, b[0]), b);
    }
  }

  /** Sorted sequences with the same tie classes start alike. */
  lemma SameHead<T(!new)>(le: (T, T) -> bool, a: seq<T>, b: seq<T>)
    requires TotalPreorder(le)
    requires Sorted(le, a) && Sorted(le, b)
    requires a != [] && b != []
    requires forall y :: Filter(TiedWith(le, y), a) == Filter(TiedWith(le, y), b)
    ensures a[0] == b[0]
  {
    var pa := TiedWith(le, a[0]);
    assert Filter(pa, a) == Filter(pa, b);
    assert Filter(TiedWith(le, b[0]), b) == Filter(TiedWith(le, b[0]), a);
    HeadPrecedesTied(le, a, b);
    HeadPrecedesTied(le, b, a);
    FilterHead(pa, a);
    FilterHead(pa, b);
  }

  lemma FilterHead<T>(p: T -> bool, s: seq<T>)
    requires s != [] && p(s[0])
    ensures Filter(p, s) != [] && Filter(p, s)[0] == s[0]
  {
  }

  lemma SortedTail<T>(le: (T, T) -> bool, a: seq<T>)
    requires Sorted(le, a) && a != []
    ensures Sorted(le, a[1..])
  {
    forall i, j | 0 <= i < j < |a| - 1 ensures le(a[1..][i], a[1..][j]) {
      assert a[1..][i] == a[i + 1] && a[1..][j] == a[j + 1];
    }
  }
}

=== FILE: types.dfy ===
/**
 The two record shapes of the catalog: the stored record (`RawChannel`) and
 the normalised channel every screen works with (`Channel`).
 */
module Types {
  import opened Js

  /** A catalog record as stored in channels.json. The program declares all
      five named fields required strings, and the model keeps to that: an
      absent field, which the code does not expect, is read as "". Keys
      other than the five named ones (such as `_encoded`) are kept in
      `rest`. */
  datatype RawChannel = RawChannel(
    itemId: string,
    name: string,
    description: string,
    imageUrl: string,
    m3u8Url: string,
    rest: map<string, Json>)

  /** The normalised channel: exactly four fields. */
  datatype Channel = Channel(id: string, name: string, logo: string, url: string)

  /** The JSON keys of the five named record fields. */
  const RecordKeys: set<string> := {"item_id", "name", "description", "image_url", "m3u8_url"}

  /** `rest` holds only keys other than the five named fields. */
  ghost predicate WellFormed(r: RawChannel) {
    forall k | k in r.rest :: k !in RecordKeys
  }
}

=== FILE: uri.dfy ===
/**
 `encodeURIComponent`: the string's UTF-8 bytes, each byte kept as its
 character when it is one of the unescaped characters of ECMAScript
 (letters, digits and `- _ . ! ~ * ' ( )`) and written as `%HH` with
 upper-case hexadecimal digits otherwise. The percent-decoding a server
 applies to a query value is its partner.
 */
module Uri {
  import opened Js

  /** The UTF-8 bytes of one character (a Unicode scalar value). */
  function Utf8Char(c: char): (b: seq<Byte>)
    ensures 1 <= |b| <= 4
    ensures c as int < 0x80 <==> |b| == 1
    ensures c as int < 0x80 ==> b == [c as int]
  {
    var n := c as int;
    if n < 0x80 then [n]
    else if n < 0x800 then [0xC0 + n / 0x40, 0x80 + n % 0x40]
    else if n < 0x1_0000 then [0xE0 + n / 0x1000, 0x80 + (n / 0x40) % 0x40, 0x80 + n % 0x40]
    else [0xF0 + n / 0x4_0000, 0x80 + (n / 0x1000) % 0x40, 0x80 + (n / 0x40) % 0x40, 0x80 + n % 0x40]
  }

  /** The UTF-8 bytes of a string. */
  function Utf8(s: string): (b: seq<Byte>)
    ensures |b| >= |s|
    decreases |s|
  {
    if s == [] then [] else Utf8Char(s[0]) + Utf8(s[1..])
  }

  /** The characters `encodeURIComponent` leaves as they are. */
  predicate IsUnescaped(c: char) {
    || ('A' <= c <= 'Z') || ('a' <= c <= 'z') || ('0' <= c <= '9')
    || c == '-' || c == '_' || c == '.' || c == '!' || c == '~'
    || c == '*' || c == '\'' || c == '(' || c == ')'
  }

  /** An upper-case hexadecimal digit. */
  function HexDigit(v: int): (c: char)
    requires 0 <= v < 16
  {
    if v < 10 then ('0' as int + v) as char else ('A' as int + v - 10) as char
  }

  /** The value of a hexadecimal digit, either case. */
  function HexValue(c: char): (r: Option<int>)
    ensures r.Some? ==> 0 <= r.value < 16
  {
    if '0' <= c <= '9' then Some(c as int - '0' as int)
    else if 'A' <= c <= 'F' then Some(c as int - 'A' as int + 10)
    else if 'a' <= c <= 'f' then Some(c as int - 'a' as int + 10)
    else None
  }

  /** Upper-case hexadecimal digits. */
  predicate IsUpperHex(c: char) {
    ('0' <= c <= '9') || ('A' <= c <= 'F')
  }

  lemma HexRoundTrip(v: int)
    requires 0 <= v < 16
    ensures HexValue(HexDigit(v)) == Some(v)
    ensures IsUpperHex(HexDigit(v))
  {
  }

  /** One byte as it appears in the output. */
  function EscapeByte(b: Byte): (r: string)
    ensures b < 0x80 && IsUnescaped(b as char) ==> r == [b as char]
    ensures !(b < 0x80 && IsUnescaped(b as char)) ==> |r| == 3 && r[0] == '%'
  {
    if b < 0x80 && IsUnescaped(b as char) then [b as char]
    else ['%', HexDigit(b / 16), HexDigit(b % 16)]
  }

  function EscapeBytes(bs: seq<Byte>): (r: string)
    decreases |bs|
  {
    if bs == [] then "" else EscapeByte(bs[0]) + EscapeBytes(bs[1..])
  }

  /** `encodeURIComponent(s)` */
  function EncodeUriComponent(s: string): (r: string)
  {
    EscapeBytes(Utf8(s))
  }

  /** The output consists of unescaped characters, '%' and upper-case
      hexadecimal digits only: in particular no '&', '=', '#', '?', '/',
      ':' or space, so the whole value stays one query parameter. */
  lemma {:induction false} EscapeBytesAlphabet(bs: seq<Byte>)
    ensures forall i | 0 <= i < |EscapeBytes(bs)| ::
      var c := EscapeBytes(bs)[i]; IsUnescaped(c) || c == '%'
    decreases |bs|
  {
    if bs != [] {
      EscapeBytesAlphabet(bs[1..]);
      var e := EscapeByte(bs[0]);
      var rest := EscapeBytes(bs[1..]);
      if !(bs[0] < 0x80 && IsUnescaped(bs[0] as char)) {
        HexRoundTrip(bs[0] / 16);
        HexRoundTrip(bs[0] % 16);
      }
      assert EscapeBytes(bs) == e + rest;
      forall i | 0 <= i < |e + rest|
        ensures IsUnescaped((e + rest)[i]) || (e + rest)[i] == '%'
      {
        if i >= |e| {
          assert (e + rest)[i] == rest[i - |e|];
        }
      }
    }
  }

  /** `EncodeUriComponent` never yields a query delimiter. */
  lemma EncodeUriComponentAlphabet(s: string)
    ensures forall i | 0 <= i < |EncodeUriComponent(s)| ::
      var c := EncodeUriComponent(s)[i]; IsUnescaped(c) || c == '%'
  {
    EscapeBytesAlphabet(Utf8(s));
  }

  /** Percent-decoding of a query value into bytes: `%HH` is one byte, an
      ASCII character is its own byte; `None` for a malformed escape or a
      character outside ASCII. */
  function PercentDecode(s: string): (r: Option<seq<Byte>>)
    decreases |s|
  {
    if s == [] then Some([])
    else if s[0] == '%' then
      if |s| < 3 then None
      else match (HexValue(s[1]), HexValue(s[2]))
        case (Some(hi), Some(lo)) =>
          (match PercentDecode(s[3..])
           case None => None
           case Some(rest) => Some([hi * 16 + lo] + rest))
        case _ => None
    else if s[0] as int < 0x80 then
      match PercentDecode(s[1..])
      case None => None
      case Some(rest) => Some([s[0] as int] + rest)
    else None
  }

  /** Decoding one escaped byte followed by more text. */
  lemma DecodeEscapeByte(b: Byte, rest: string, tail: seq<Byte>)
    requires PercentDecode(rest) == Some(tail)
    ensures PercentDecode(EscapeByte(b) + rest) == Some([b] + tail)
  {
    var e := EscapeByte(b);
    if b < 0x80 && IsUnescaped(b as char) {
      assert (e + rest)[1..] == rest;
    } else {
      HexRoundTrip(b / 16);
      HexRoundTrip(b % 16);
      assert (e + rest)[3..] == rest;
    }
  }

  /** Percent-decoding undoes the escaping of any byte string. */
  lemma {:induction false} DecodeEscapeBytes(bs: seq<Byte>)
    ensures PercentDecode(EscapeBytes(bs)) == Some(bs)
    decreases |bs|
  {
    if bs != [] {
      DecodeEscapeBytes(bs[1..]);
      DecodeEscapeByte(bs[0], EscapeBytes(bs[1..]), bs[1..]);
      assert [bs[0]] + bs[1..] == bs;
    }
  }

  /** The value a server decodes from `encodeURIComponent(s)` is the UTF-8
      encoding of `s`. */
  lemma DecodeEncodeUriComponent(s: string)
    ensures PercentDecode(EncodeUriComponent(s)) == Some(Utf8(s))
  {
    DecodeEscapeBytes(Utf8(s));
  }

  /** A string of unescaped characters is its own encoding. */
  lemma {:induction false} EncodeUnescaped(s: string)
    requires forall i | 0 <= i < |s| :: IsUnescaped(s[i])
    ensures EncodeUriComponent(s) == s
    decreases |s|
  {
    if s != [] {
      EncodeUnescaped(s[1..]);
      assert Utf8(s) == [s[0] as int] + Utf8(s[1..]);
      assert EscapeBytes(Utf8(s)) == EscapeByte(s[0] as int) + EscapeBytes(Utf8(s[1..]));
      assert ((s[0] as int) as char) == s[0];
      assert s == [s[0]] + s[1..];
    }
  }

  /** A space is escaped, letters are kept. */
  lemma ExampleSpace()
    ensures EncodeUriComponent("a b") == "a%20b"
  {
    assert Utf8("a b") == [0x61, 0x20, 0x62];
    assert EscapeBytes([0x62]) == "b";
    assert EscapeBytes([0x20, 0x62]) == "%20b";
  }

  /** The query delimiters '?' and '=' and the path separator are escaped. */
  lemma ExampleDelimiters()
    ensures EncodeUriComponent("/?=") == "%2F%3F%3D"
  {
    assert Utf8("/?=") == [0x2F, 0x3F, 0x3D];
    assert EscapeBytes([0x3D]) == "%3D";
    assert EscapeBytes([0x3F, 0x3D]) == "%3F%3D";
  }

  /** A non-ASCII character becomes its escaped UTF-8 bytes. */
  lemma ExampleNonAscii()
    ensures EncodeUriComponent("\U{E9}") == "%C3%A9"
  {
    assert Utf8("\U{E9}") == [0xC3, 0xA9];
    assert EscapeBytes([0xA9]) == "%A9";
  }
}

=== FILE: use_channels.dfy ===
/**
 The channel hook of the web player: toggling a favourite (and the
 re-sort and save that follow), favourite lookup, lookup by id and the
 circular next/previous channel.
 */
module UseChannels {
  import opened Js
  import opened Types
  import opened Seqs
  import StableSort
  import Channels
  import Favorites

  /** Keeps the ids different from `id`. */
  function Other(id: string): string -> bool {
    (x: string) => x != id
  }

  /** The favourite-list updater of `toggleFavorite`: drop every occurrence
      of a present id, append an absent one. */
  function Toggle(prev: seq<string>, id: string): (next: seq<string>)
    ensures id in next <==> id !in prev
    ensures forall x | x != id :: x in next <==> x in prev
    ensures multiset(next)[id] <= 1
    ensures id !in prev ==> |next| == |prev| + 1 && next[..|prev|] == prev && next[|prev|] == id
    ensures id in prev ==>
      && IsSubsequence(next, prev)
      && forall x | x != id :: multiset(next)[x] == multiset(prev)[x]
  {
    if id in prev then
      FilterContents(Other(id), prev);
      Filter(Other(id), prev)
    else
      assert (prev + [id])[..|prev|] == prev;
      prev + [id]
  }

  /** Toggling an absent id twice restores the exact list. */
  lemma ToggleTwiceAbsent(prev: seq<string>, id: string)
    requires id !in prev
    ensures Toggle(Toggle(prev, id), id) == prev
  {
    FilterConcat(Other(id), prev, [id]);
    FilterKeepsAll(Other(id), prev);
    assert Filter(Other(id), [id]) == [];
  }

  /** Toggling a present id twice restores which ids are favourites; the id
      now sits once, at the end. */
  lemma ToggleTwicePresent(prev: seq<string>, id: string)
    requires id in prev
    ensures forall x :: x in Toggle(Toggle(prev, id), id) <==> x in prev
    ensures var twice := Toggle(Toggle(prev, id), id);
      twice[|twice| - 1] == id && multiset(twice)[id] == 1
  {
  }

  /** `isFavorite` */
  function IsFavorite(favoriteIds: seq<string>, id: string): bool {
    id in favoriteIds
  }

  /** A toggle flips the toggled id's favourite status and no other. */
  lemma ToggleFlipsOnlyThatId(prev: seq<string>, id: string, other: string)
    requires other != id
    ensures IsFavorite(Toggle(prev, id), id) == !IsFavorite(prev, id)
    ensures IsFavorite(Toggle(prev, id), other) == IsFavorite(prev, other)
  {
  }

  /** `channels.findIndex(c => c.id === id)`, with `None` for -1. */
  function FindIndex(channels: seq<Channel>, id: string): (r: Option<nat>)
    ensures r.None? <==> forall i | 0 <= i < |channels| :: channels[i].id != id
    ensures r.Some? ==>
      && r.value < |channels|
      && channels[r.value].id == id
      && forall j | 0 <= j < r.value :: channels[j].id != id
    decreases |channels|
  {
    if channels == [] then None
    else if channels[0].id == id then Some(0)
    else match FindIndex(channels[1..], id)
      case None => None
      case Some(i) => Some(i + 1)
  }

  /** `getChannelById`: the first channel carrying the id, if any. */
  function GetChannelById(channels: seq<Channel>, id: string): (r: Option<Channel>)
    ensures r.None? <==> forall i | 0 <= i < |channels| :: channels[i].id != id
    ensures r.Some? ==> exists i | 0 <= i < |channels| ::
      channels[i] == r.value && r.value.id == id && forall j | 0 <= j < i :: channels[j].id != id
  {
    match FindIndex(channels, id)
    case None => None
    case Some(i) => Some(channels[i])
  }

  datatype Direction = Next | Prev

  /** The index one step from `i` in direction `dir`, wrapping around. */
  function Step(i: nat, n: nat, dir: Direction): (k: nat)
    requires i < n
    ensures k < n
  {
    match dir
    case Next => (i + 1) % n
    case Prev => (i - 1 + n) % n
  }

  /** `getAdjacentChannel`: the channel next to (or before) the current one,
      wrapping circularly; none when the id is not listed. */
  function GetAdjacentChannel(channels: seq<Channel>, currentId: string, dir: Direction): (r: Option<Channel>)
    ensures r.None? <==> forall i | 0 <= i < |channels| :: channels[i].id != currentId
    ensures r.Some? ==> r.value in channels
  {
    match FindIndex(channels, currentId)
    case None => None
    case Some(i) => Some(channels[Step(i, |channels|, dir)])
  }

  /** The wrap-around step without modular arithmetic. */
  lemma StepCases(i: nat, n: nat)
    requires i < n
    ensures Step(i, n, Next) == if i + 1 < n then i + 1 else 0
    ensures Step(i, n, Prev) == if i > 0 then i - 1 else n - 1
  {
    if i + 1 < n {
      ModBelow(i + 1, n);
    } else {
      ModBelow(0, n);
      assert i + 1 == 0 + n;
      ModShift(0, n);
    }
    if i > 0 {
      ModShift(i - 1, n);
    } else {
      ModBelow(n - 1, n);
    }
  }

  lemma ModBelow(a: int, n: int)
    requires 0 <= a < n
    ensures a % n == a
  {
  }

  lemma ModShift(a: int, n: int)
    requires 0 <= a < n
    ensures (a + n) % n == a
  {
  }

  ghost predicate UniqueIds(channels: seq<Channel>) {
    forall i, j | 0 <= i < j < |channels| :: channels[i].id != channels[j].id
  }

  /** The channel at `i` is found at `i` when ids are unique. */
  lemma FindIndexUnique(channels: seq<Channel>, i: nat)
    requires UniqueIds(channels)
    requires i < |channels|
    ensures FindIndex(channels, channels[i].id) == Some(i)
  {
  }

  /** The channel at `i` is found at `i` when no earlier channel has its id. */
  lemma FindIndexFirst(channels: seq<Channel>, i: nat)
    requires i < |channels|
    requires forall j | 0 <= j < i :: channels[j].id != channels[i].id
    ensures FindIndex(channels, channels[i].id) == Some(i)
  {
    var r := FindIndex(channels, channels[i].id);
    assert r.Some?;
    if r.value < i {
    } else if r.value > i {
    }
  }

  /** From the first channel with its id, at position `i`, next goes to
      `i + 1` and previous to `i - 1`, modulo the list length; duplicated
      ids elsewhere in the list do not matter. */
  lemma AdjacentIsNeighbour(channels: seq<Channel>, i: nat)
    requires i < |channels|
    requires forall j | 0 <= j < i :: channels[j].id != channels[i].id
    ensures GetAdjacentChannel(channels, channels[i].id, Next) == Some(channels[(i + 1) % |channels|])
    ensures GetAdjacentChannel(channels, channels[i].id, Prev) == Some(channels[(i + |channels| - 1) % |channels|])
  {
    FindIndexFirst(channels, i);
  }

  /** With unique ids, next then previous returns to the starting channel,
      and so does previous then next. */
  lemma NextThenPrev(channels: seq<Channel>, i: nat)
    requires UniqueIds(channels)
    requires i < |channels|
    ensures var next := GetAdjacentChannel(channels, channels[i].id, Next);
      next.Some? && GetAdjacentChannel(channels, next.value.id, Prev) == Some(channels[i])
    ensures var prev := GetAdjacentChannel(channels, channels[i].id, Prev);
      prev.Some? && GetAdjacentChannel(channels, prev.value.id, Next) == Some(channels[i])
  {
    var n := |channels|;
    FindIndexUnique(channels, i);
    StepCases(i, n);
    var k := Step(i, n, Next);
    FindIndexUnique(channels, k);
    StepCases(k, n);
    var m := Step(i, n, Prev);
    FindIndexUnique(channels, m);
    StepCases(m, n);
  }

  /** Next from the last channel wraps to the first; previous from the
      first wraps to the last. */
  lemma AdjacentWraps(channels: seq<Channel>)
    requires UniqueIds(channels)
    requires channels != []
    ensures GetAdjacentChannel(channels, channels[|channels| - 1].id, Next) == Some(channels[0])
    ensures GetAdjacentChannel(channels, channels[0].id, Prev) == Some(channels[|channels| - 1])
  {
    FindIndexUnique(channels, |channels| - 1);
    FindIndexUnique(channels, 0);
    StepCases(|channels| - 1, |channels|);
    StepCases(0, |channels|);
  }

  // ---------------------------------------------------------------------
  // The hook's state and `toggleFavorite`

  /** The hook's state: the displayed channels, the favourite ids, and the
      store the favourites are persisted to. */
  datatype HookState = HookState(channels: seq<Channel>, favoriteIds: seq<string>, store: Favorites.Store)

  /** `toggleFavorite(id)`: update the favourite list, save it (fire and
      forget; `writeOk` is the outcome of the write), and re-sort the full
      catalog `catalog` with the new list. */
  function ToggleFavorite(s: HookState, catalog: seq<RawChannel>, id: string, writeOk: bool,
                          codec: Favorites.JsonCodec, nameLe: (string, string) -> bool): (r: HookState)
    requires StableSort.TotalPreorder(nameLe)
    ensures r.favoriteIds == Toggle(s.favoriteIds, id)
    ensures IsFavorite(r.favoriteIds, id) == !IsFavorite(s.favoriteIds, id)
    ensures forall x | x != id :: IsFavorite(r.favoriteIds, x) == IsFavorite(s.favoriteIds, x)
    ensures r.channels == Favorites.SortChannelsWithFavorites(Channels.LoadChannels(catalog), r.favoriteIds, nameLe)
    ensures multiset(r.channels) == multiset(Channels.LoadChannels(catalog))
    ensures forall i, j | 0 <= i < j < |r.channels| && r.channels[j].id in r.favoriteIds ::
      r.channels[i].id in r.favoriteIds
    ensures forall i, j | 0 <= i < j < |r.channels| && (r.channels[i].id in r.favoriteIds <==> r.channels[j].id in r.favoriteIds) ::
      nameLe(r.channels[i].name, r.channels[j].name)
    ensures !writeOk ==> r.store == s.store
    ensures writeOk && codec.parse(codec.stringify(r.favoriteIds)) == Some(r.favoriteIds)
            && codec.stringify(r.favoriteIds) != "" ==>
      Favorites.LoadFavoriteIds(r.store, true, codec) == r.favoriteIds
  {
    var favoriteIds := Toggle(s.favoriteIds, id);
    var store := Favorites.SaveFavoriteIds(s.store, writeOk, favoriteIds, codec);
    var channels := Favorites.SortChannelsWithFavorites(Channels.LoadChannels(catalog), favoriteIds, nameLe);
    HookState(channels, favoriteIds, store)
  }

  /** The channel list after a toggle is rebuilt from the full catalog: it
      does not depend on the list displayed before. */
  lemma ToggleFavoriteRebuildsFromCatalog(s1: HookState, s2: HookState, catalog: seq<RawChannel>, id: string,
                                          writeOk: bool, codec: Favorites.JsonCodec,
                                          nameLe: (string, string) -> bool)
    requires StableSort.TotalPreorder(nameLe)
    requires s1.favoriteIds == s2.favoriteIds
    ensures ToggleFavorite(s1, catalog, id, writeOk, codec, nameLe).channels
         == ToggleFavorite(s2, catalog, id, writeOk, codec, nameLe).channels
  {
  }
}
